=== FILE: README.md ===
# Navigation menu and mock document store, in Dafny

This project models two pieces of a personal GitHub Pages site's client code.
Both are stated as pure functions over immutable data, with their properties
proved.

- **The navigation menu's location logic.** The `<navigation-menu>` element
  computes a *site root* prefix from `window.location` and puts it in front of
  every link. It also decides which link gets the `active` class
  (`isActive`). `window.location` is modelled as a record holding pathname,
  hostname and protocol. JavaScript's `split('/')`, `join('/')`,
  `filter(Boolean)` and `endsWith` are written out in module `Paths`, with their
  round-trip lemmas.
- **`MockFirestore`.** This is the in-memory stand-in for the real-time
  database, used for local development. Its state is the comment collection
  together with the ordered list of registered snapshot listeners. The
  collection is a JavaScript `Map`, so it is modelled as an insertion-ordered
  sequence of `(id, fields)` entries with distinct ids. Every operation is a
  transition: it returns the next state plus the notifications it delivers, in
  delivery order. One `Notification` is one call of a listener, carrying the
  `docChanges()` it is shown. The operations modelled are:
  - `add`, `doc(id).update` with its `increment` directive, and `where(..).get`
    with the `ref.update` of each result;
  - `orderBy(..).onSnapshot` and its unsubscribe handle;
  - `batch().update` and `commit`;
  - `_notifyListeners`.

  Field values are the JavaScript values the store meets, each modelled as a
  datatype:
  - numbers, strings, booleans and `null`;
  - the `serverTimestamp()` object;
  - the `increment(n)` object.

  Module `Values` defines truthiness, `===` and `+` for these values.
  `update` depends on truthiness and `+`, and `where` depends on `===`.

Modules, one per file:

- `Wrappers` and `Seqs` (common.dfy): `Option`, `IndexOf`, `Take`, subsequences.
- `Paths` (paths.dfy): split, join, filter, endsWith.
- `Navigation` (navigation.dfy): site root and active link.
- `NavigationProperties` (navigation_properties.dfy): the menu's properties.
- `Values` (values.dfy): field values and the JavaScript operators used on them.
- `MockStore` (store.dfy): the store's state and operations.
- `Batches` (batch.dfy): the write batch and `commit` as a loop.
- `StoreProperties` (store_properties.dfy): properties relating several store operations.

Effects the model cannot perform are turned into parameters:

- The clock reading `Date.now()` that `add` uses for ids becomes the parameter `now`.
- A listener is known only by its identity, a number.
- A call of a listener is recorded as a `Notification` rather than performed.

## Model

| member | source | states |
|---|---|---|
| `Paths.Split` | js/components/navigation-menu.js:10 | `split('/')` always yields at least one segment and no segment contains the separator |
| `Paths.SplitAppend` | js/components/navigation-menu.js:10 | splitting `a + "/" + b` gives the segments of `a` followed by those of `b` |
| `Paths.JoinSplit` | js/components/navigation-menu.js:25 | `split('/')` then `join('/')` gives back the original string |
| `Paths.SplitJoin` | js/components/navigation-menu.js:25 | `join('/')` of separator-free segments, split again, gives back the segments |
| `Paths.JoinOfSplitPrefix` | js/components/navigation-menu.js:30 | joining the first k segments of a split string gives a prefix of that string |
| `Paths.Join` | js/components/navigation-menu.js:25 | `join(sep)` of no parts is the empty string, and the joined string has room for a separator between every two parts |
| `Paths.JoinStartsWithFirst` | js/components/navigation-menu.js:25 | the joined string starts with the first part, and the separator follows it when a second part comes next |
| `Paths.NonEmpty` | js/components/navigation-menu.js:120 | `filter(Boolean)` keeps the non-empty segments in their original order (a subsequence), with every non-empty segment kept as often as it occurs and no empty one kept |
| `Paths.NonEmptyAppend` | js/components/navigation-menu.js:120 | filtering a concatenation is concatenating the filtered parts |
| `Navigation.Trim` | js/components/navigation-menu.js:12-20 | the result is a prefix of the segments with at most two removed; a trailing `.html` segment is always removed; a trailing `articles` is always removed, alone or after an `.html` page is removed, and then exactly two go; only a trailing `.html` segment or a trailing `articles` is ever removed |
| `Navigation.BaseSegments` | js/components/navigation-menu.js:9-20 | the segments the root is built from are the pathname's `split('/')` with at most its last two removed, none holding a `/` |
| `Seqs.IndexOf` | js/components/navigation-menu.js:28 | `findIndex` gives -1 exactly when no segment matches; otherwise the segment there matches and none before it does |
| `Seqs.IndexOfFirst` | js/components/navigation-menu.js:28 | a position holding the segment with no earlier occurrence is what `findIndex` returns |
| `Navigation.FileRoot` | js/components/navigation-menu.js:26-31 | without a `chrriedel.github.io` segment the prefix is empty, otherwise it ends in `/` |
| `Navigation.PagesRootAsWritten` | js/components/navigation-menu.js:24-25 | the GitHub Pages prefix as the code computes it always ends in `/`; its value is given by `PagesRootIsRepository` for `/repo/…`, by `PagesTopLevelPage` for `/page.html`, and by `PagesRootPageDoubleSlash` for `/` |
| `Navigation.PagesRoot` | js/components/navigation-menu.js:24-25 | the corrected GitHub Pages prefix ends in `/` and differs from the as-written one by at most one trailing `/` |
| `Navigation.SiteRootAsWritten` | js/components/navigation-menu.js:9-34 | on a host that is neither GitHub Pages nor `file:` the root is `/`; whenever a root is found it ends in `/` |
| `Navigation.SiteRoot` | js/components/navigation-menu.js:9-34 | the same two facts for the corrected root, which agrees with the code except for one extra `/` on GitHub Pages |
| `Navigation.PageSegments` | js/components/navigation-menu.js:119-124 | the segments `isActive` inspects are non-empty and hold no `/`; which ones they are is stated by `PagesDropsFirstSegment`, `LastSegmentIsCurrentPage` and `PagesLastSegmentIsCurrentPage` |
| `Navigation.CurrentPage` | js/components/navigation-menu.js:130 | the current page is empty exactly when there is no page segment; otherwise it is one of the page segments and holds no `/`; that it is the last one is stated by `LastSegmentIsCurrentPage` and `PagesLastSegmentIsCurrentPage` |
| `Navigation.IsActive` | js/components/navigation-menu.js:118-135 | the class is `active` or empty; the articles link is active on every articles page; the link naming the current page is active, and so is the index link when there is no current page; a page link whose name is not a segment is inactive, except the index link when there is no current page |
| `NavigationProperties.TrimKeepsPrefix` | js/components/navigation-menu.js:12-20 | trimming never removes segments of a prefix whose last segment is not `articles` |
| `NavigationProperties.TrimArticlesPage` | js/components/navigation-menu.js:12-20 | a trailing `articles` directory followed by an `.html` page is removed as a pair, whatever segments precede them |
| `NavigationProperties.ArticlesPageBase` | js/components/navigation-menu.js:12-20 | for `dir/articles/page.html` both the page and the articles directory are removed, leaving the segments of `dir`, whatever `dir` ends in |
| `NavigationProperties.ArticlesPageAndIndexShareRoot` | js/components/navigation-menu.js:12-34 | an article page `dir/articles/p.html` and the articles index `dir/articles.html` get the same site root, on any host, both as written and corrected, provided `dir` does not itself end in an `articles` segment (for `/articles/articles/p.html` against `/articles/articles.html` on GitHub Pages the roots are `/articles/` and `/`) |
| `NavigationProperties.PagesRootIsRepository` | js/components/navigation-menu.js:22-25 | on GitHub Pages any page under `/repo/` gets the prefix `/repo/`, for every `repo` other than `articles` (`/articles/x.html` is trimmed down to the root `/`) |
| `NavigationProperties.FileRootIsRepositoryDirectory` | js/components/navigation-menu.js:26-31 | on `file:` a page anywhere below the first `chrriedel.github.io` directory gets the path of that directory plus `/` as its prefix |
| `NavigationProperties.PrefixThroughName` | js/components/navigation-menu.js:28-30 | below a directory none of whose segments is `name`, the segments through the first `name`, joined and closed by `/`, are that directory followed by `name` and `/` |
| `NavigationProperties.FileRootMissing` | js/components/navigation-menu.js:26-31 | on `file:` a path without the repository directory gets the empty prefix |
| `NavigationProperties.SiteRootIsPathPrefix` | js/components/navigation-menu.js:9-34 | every found root is a prefix of the pathname followed by `/`, both as written and corrected |
| `NavigationProperties.PagesSiteRootNoDoubleSlash` | js/components/navigation-menu.js:24-25 | the corrected GitHub Pages prefix never holds two adjacent slashes |
| `NavigationProperties.PagesRootPageDoubleSlash` | js/components/navigation-menu.js:24-25 | for pathname `/` on `chrriedel.github.io` the code yields `//`, which holds a double slash; the corrected root is `/` |
| `NavigationProperties.ArticlesActiveIff` | js/components/navigation-menu.js:125-128 | the articles link is active if and only if a page segment is `articles` or the pathname ends in `articles.html` |
| `NavigationProperties.AtMostOneMainPageActive` | js/components/navigation-menu.js:129-134 | of the index, repositories and about links at most one is active, and with no page segment it is the index link |
| `NavigationProperties.LastSegmentSelectsLink` | js/components/navigation-menu.js:118-135 | off GitHub Pages, a main-page link is active if and only if it is the pathname's last segment |
| `NavigationProperties.PagesDropsFirstSegment` | js/components/navigation-menu.js:119-124 | for every pathname, the page segments on GitHub Pages are those on any other host without the first one, and none when there are none |
| `NavigationProperties.PagesLastSegmentIsCurrentPage` | js/components/navigation-menu.js:119-130 | on GitHub Pages, for `dir/page` where `dir` holds a non-empty segment, the current page is `page` |
| `NavigationProperties.PagesLastSegmentSelectsLink` | js/components/navigation-menu.js:118-135 | on GitHub Pages, for `dir/page` where `dir` holds a non-empty segment, a main-page link is active if and only if it is `page` |
| `NavigationProperties.CurrentPageSelectsLink` | js/components/navigation-menu.js:129-133 | on any host, a non-empty current page makes its own main-page link the only active one |
| `NavigationProperties.PagesTopLevelPage` | js/components/navigation-menu.js:9-25 | on GitHub Pages a top-level page `/page.html` has the site root `/`, as written and as corrected |
| `NavigationProperties.PagesSecondSegmentSelectsLink` | js/components/navigation-menu.js:120-133 | on GitHub Pages, for `/repo/page` the repository segment is ignored, `page` is the only page segment, and a main-page link is active if and only if it is `page` |
| `NavigationProperties.PagesHostIgnoresFirstSegment` | js/components/navigation-menu.js:120-124 | on GitHub Pages a one-segment pathname leaves no page segment, so only the index link is active |
| `Values.NatText` | js/mock-firebase.js:22 | the decimal text of the clock reading is non-empty, all digits, without leading zero |
| `Values.ParseNatText` | js/mock-firebase.js:22 | reading the decimal text back gives the number |
| `Values.NatTextInjective` | js/mock-firebase.js:22 | distinct clock readings have distinct decimal texts |
| `Values.Plus` | js/mock-firebase.js:35 | `a + n` adds when `a` is a number; when `a` is `true` the result is `n + 1`; when `a` is `false` or `null` the result is `n`; when `a` is a string or an object, the text of `n` is appended to the text of `a` (so `"" + n` is the string of `n`) |
| `Values.IntText` | js/mock-firebase.js:35 | the text `+` appends for a number is its decimal text, with a leading `-` when negative |
| `Values.Increment` | js/mock-firebase.js:7-9 | `increment(n)` is an object whose `__increment` property is `n`; like every object it is truthy and strictly equal to nothing |
| `Values.StrictEquals` | js/mock-firebase.js:48 | `===` holds only between equal primitive values; on two primitives it is exactly value equality |
| `MockStore.NewStore` | js/mock-firebase.js:14-17 | a new store holds no documents and no listeners, so its ids are trivially distinct: the base case of the distinct-ids invariant every operation preserves |
| `MockStore.Get` | js/mock-firebase.js:30 | `get(id)` finds nothing exactly when no entry has the id; with distinct ids it gives that entry's fields |
| `MockStore.Put` | js/mock-firebase.js:23 | `set` keeps the order of existing ids, appends a new id last, and keeps ids distinct |
| `MockStore.PutGet` | js/mock-firebase.js:23 | after `set(id, data)`, `get(id)` gives `data` and every other id reads as before |
| `MockStore.Notify` | js/mock-firebase.js:114-126 | every listener is called once, in registration order, with the one change |
| `MockStore.Add` | js/mock-firebase.js:21-26 | the returned id is `doc_` plus the clock reading; the document is stored under it and no other document changes; a new id goes last and the order of the others is kept, while a reused id keeps its place; every listener is told it was added |
| `MockStore.TakesIncrement` | js/mock-firebase.js:34 | the test holds exactly when `data.upvotes` is truthy, has an `__increment` property, and that property is truthy |
| `MockStore.Counter` | js/mock-firebase.js:35 | the fallback of `newData.upvotes` to 0 gives the stored counter when that is truthy and `0` otherwise; a truthy result is always the stored counter |
| `MockStore.Update` | js/mock-firebase.js:28-43 | with a non-zero increment directive only the counter changes, by `Plus`, and other keys of the data are ignored; otherwise the data's keys overwrite and the remaining keys stay; other documents are untouched; the document keeps its place in insertion order, or goes last when it is new; every listener gets the new document as modified |
| `MockStore.Merge` | js/mock-firebase.js:53-58 | the document becomes the existing fields overwritten by the data's keys; other documents are untouched; the document keeps its place in insertion order, or goes last when it is new; every listener gets it as modified |
| `MockStore.Matches` | js/mock-firebase.js:48 | a document matches exactly when the field is present and holds that very primitive value |
| `MockStore.Query` | js/mock-firebase.js:45-63 | exactly the documents whose field strictly equals the value are returned, in insertion order |
| `MockStore.Replay` | js/mock-firebase.js:68-77 | the initial snapshot holds one `added` change per stored document, in insertion order, with its id and data |
| `MockStore.OnSnapshot` | js/mock-firebase.js:65-81 | the callback first receives every stored document as added, in insertion order, and then joins the end of the listener list; documents are unchanged |
| `MockStore.RemoveAt` | js/mock-firebase.js:86 | `splice(k, 1)` takes out exactly the element at `k`: putting it back at `k` restores the list, the others keep their order, and the multiset loses one copy of it |
| `MockStore.Unsubscribe` | js/mock-firebase.js:83-88 | exactly the first registration of the callback is removed: the listener list is the result with the callback put back at that first position, so the others keep their order; an unregistered callback changes nothing |
| `Batches.Queue` | js/mock-firebase.js:97-105 | queuing appends one operation after the ones already queued |
| `Batches.ApplyAll` | js/mock-firebase.js:106-110 | the queued merges leave listeners and unnamed documents alone and keep ids distinct |
| `Batches.ApplyAllSingle` | js/mock-firebase.js:98-103 | committing one queued update is the plain merge of that update, notifications included |
| `Batches.MergeEventsModified` | js/mock-firebase.js:99-102 | each queued merge notifies with exactly one change, of kind modified |
| `Batches.ApplyAllEventsModified` | js/mock-firebase.js:98-110 | every notification a commit delivers shows exactly one change, of kind modified |
| `Batches.ApplyAllEventCount` | js/mock-firebase.js:106-110 | a commit notifies each listener once per queued operation |
| `Batches.Commit` | js/mock-firebase.js:106-110 | the loop over the queue ends in the state and notifications of applying the queued merges in order |
| `StoreProperties.IncrementAddsToCounter` | js/mock-firebase.js:34-35 | `increment(n)` with n non-zero on a numeric or missing counter stores the counter plus n, starting from 0 |
| `StoreProperties.IncrementIgnoresOtherKeys` | js/mock-firebase.js:34-38 | with an increment directive, other keys of the update data are not written |
| `StoreProperties.UpvotesAccumulate` | js/mock-firebase.js:34-35 | N upvotes of a document with a numeric counter add exactly N |
| `StoreProperties.ZeroIncrementStoresDirective` | js/mock-firebase.js:34-38 | `increment(0)` fails the directive test, so the directive object itself is stored as the counter |
| `StoreProperties.UpdateWithoutDirectiveIsMerge` | js/mock-firebase.js:36-38 | without an increment directive `doc(id).update` equals the plain merge of `ref.update` |
| `StoreProperties.MergeStoresDirective` | js/mock-firebase.js:55 | `ref.update` and batch updates store an increment directive as the value, uninterpreted |
| `StoreProperties.DistinctClocksKeepBoth` | js/mock-firebase.js:21-24 | two documents added at different clock readings get different ids and both are kept |
| `StoreProperties.SameClockReplaces` | js/mock-firebase.js:21-24 | two documents added at the same clock reading share an id; the second replaces the first in place and is reported added again |
| `StoreProperties.QueryReturnsStoredDocuments` | js/mock-firebase.js:47-60 | every query result is the document stored under its id at query time |
| `StoreProperties.SubscribeThenUnsubscribe` | js/mock-firebase.js:80-88 | subscribing a new callback and calling its handle restores the store |
| `StoreProperties.UnsubscribeTwice` | js/mock-firebase.js:83-88 | calling the handle of a once-registered listener a second time changes nothing |
| `StoreProperties.UnsubscribeKeepsOthers` | js/mock-firebase.js:84-86 | the handle removes one registration of its callback and no registration of any other listener |
| `StoreProperties.NewListenerNotifiedLast` | js/mock-firebase.js:80 | a new subscriber is notified of later additions after every earlier subscriber |
| `StoreProperties.ApplyAllAppend` | js/mock-firebase.js:106-110 | committing a queue in two parts equals committing the first part and then the second, notifications included |
| `StoreProperties.CommitQueuedInOrder` | js/mock-firebase.js:97-110 | two queued updates committed together equal two plain merges in queue order |
| `StoreProperties.LaterQueuedUpdateWins` | js/mock-firebase.js:99-101 | the last queued operation of the whole batch decides every key it writes in its document |
| `StoreProperties.LastUpdateOfDocumentWins` | js/mock-firebase.js:99-101 | the last queued update of a document decides every key it writes there, whatever later operations do to other documents |

## Left out

- js/main.js is not part of this model. It is the page's DOM wiring and runs on real browser I/O.
- The rendered Shadow DOM template, `customElements.define` and the `window.firebase` global are left out. They are I/O, and the only thing they carry is the strings computed here.
- The awaits in `add`, `update` and `commit` are left out, along with listeners that call back into the store while being notified. Every operation is modelled as running to completion before the next starts.
- Listeners are assumed never to throw. In the store a throwing callback would stop `forEach` in `_notifyListeners` (js/mock-firebase.js:115), so later listeners are not called. It would reject `await operation()` in `commit` (line 108), so the remaining queued merges are skipped. In `onSnapshot` it would skip `listeners.push` (line 80). None of these outcomes is modelled.
- `serverTimestamp()` is modelled as an object value whose text is a parameter, because it reads the clock.
- Numbers are integers, with no floating point, NaN or infinities. So `Values.IntText` gives no exponent notation.
- The collection name passed to `collection`, the operator of `where` and the arguments of `orderBy` are left out. The store ignores all of them.
- `Values.StrictEquals`: two object values are never strictly equal, because reference identity is not modelled. `where` on an object value therefore returns nothing.
- `MockStore.Query`: a missing field reads as `undefined`. No modelled value is `undefined`, so the case `where(field, op, undefined)`, which would match documents lacking the field, is not modelled.
- Document data is treated as immutable values, so aliasing between the store, its callers and its listeners is not modelled. Three cases follow. `batch().update` reads `docRef.id` and `data` only when `commit` runs the queued operation (js/mock-firebase.js:98-101), so mutating them between `update` and `commit` would change what is written. Listeners receive the stored object itself (lines 41, 57 and 102 passed on at line 121), so a listener that mutates `doc.data()` would edit the store. The initial snapshot's `docChanges` is a function evaluated when called (line 69), so a deferred call would see the collection as it is at that later time.
- `MockStore.Add`: the stored copy `{ ...data }` and the notified `data` are the same value here. Later mutation of the caller's object is not modelled.
- `Batches.Queue`: `update` returns the store object itself (`return this`) rather than the batch. Chaining is not modelled.
- `Batches.ApplyAll`: the number and shape of the notifications are stated separately, in `Batches.ApplyAllEventCount` and `Batches.ApplyAllEventsModified`.

## Findings

| source | as written | input that shows it | evidently intended | confidence | as-written member | corrected member |
|---|---|---|---|---|---|---|
| js/components/navigation-menu.js:24-25 | on a GitHub Pages host the root is `pathSegments.slice(0, 2).join('/') + '/'` | pathname `/` on host `chrriedel.github.io`: the split gives `["", ""]`, the join gives `/`, and the root becomes `//`, which a browser reads as a protocol-relative URL naming a host | append `/` only when the joined prefix does not already end in one, giving `/` | not executed | `NavigationProperties.PagesRootPageDoubleSlash` | `NavigationProperties.PagesSiteRootNoDoubleSlash` |

=== FILE: batch.dfy ===
/**
 The store's write batch: `batch()` starts an empty queue, `update` queues a
 plain merge without touching the store, and `commit` applies the queued
 merges one after another, in queue order, each notifying every listener.
 */
module Batches {
  import opened Seqs
  import opened Values
  import opened MockStore

  /** One queued `batch.update(docRef, data)`. */
  datatype Op = Op(id: Id, data: Fields)

  datatype Batch = Batch(ops: seq<Op>)

  /** `batch()`: nothing queued. */
  const NewBatch := Batch([])

  /** `batch.update(docRef, data)`: queues a merge into `docRef.id` after the
      ones already queued. The store is not an argument: nothing is applied. */
  function Queue(b: Batch, ref: Id, data: Fields): (r: Batch)
    ensures |r.ops| == |b.ops| + 1
    ensures r.ops[..|b.ops|] == b.ops
    ensures r.ops[|b.ops|] == Op(ref, data)
  {
    Batch(b.ops + [Op(ref, data)])
  }

  /** The ids the queued operations write to, in queue order. */
  function OpIds(ops: seq<Op>): (r: seq<Id>)
    ensures |r| == |ops|
    ensures forall i :: 0 <= i < |ops| ==> r[i] == ops[i].id
  {
    if |ops| == 0 then [] else OpIds(ops[..|ops| - 1]) + [Last(ops).id]
  }

  /** The queued merges applied one after another in queue order, as
      separate `ref.update` calls would apply them. Documents no operation
      names are untouched. */
  function ApplyAll(s: Store, ops: seq<Op>): (t: Transition)
    ensures t.store.listeners == s.listeners
    ensures forall other :: other !in OpIds(ops) ==> Get(t.store.entries, other) == Get(s.entries, other)
    ensures DistinctIds(s.entries) ==> DistinctIds(t.store.entries)
    decreases |ops|
  {
    if |ops| == 0 then Transition(s, [])
    else
      var init := ops[..|ops| - 1];
      var t := ApplyAll(s, init);
      var op := Last(ops);
      var u := Merge(t.store, op.id, op.data);
      Transition(u.store, t.events + u.events)
  }

  /** Committing notifies every listener once per queued operation. */
  lemma {:induction false} ApplyAllEventCount(s: Store, ops: seq<Op>)
    ensures |ApplyAll(s, ops).events| == |ops| * |s.listeners|
    decreases |ops|
  {
    if |ops| > 0 {
      var init := ops[..|ops| - 1];
      ApplyAllEventCount(s, init);
      var t := ApplyAll(s, init);
      var u := Merge(t.store, Last(ops).id, Last(ops).data);
      assert |ApplyAll(s, ops).events| == |t.events| + |s.listeners|;
      MultiplyStep(|ops|, |s.listeners|);
    }
  }

  /** A notification showing one "modified" change. */
  predicate SingleModified(n: Notification)
  {
    |n.changes| == 1 && n.changes[0].kind == Modified
  }

  /** The last queued operation is applied after all the others. */
  lemma ApplyAllStep(s: Store, ops: seq<Op>)
    requires |ops| > 0
    ensures var t := ApplyAll(s, ops[..|ops| - 1]);
            var u := Merge(t.store, Last(ops).id, Last(ops).data);
            ApplyAll(s, ops) == Transition(u.store, t.events + u.events)
  {
  }

  /** A batch of one operation is a single merge. */
  lemma ApplyAllSingle(s: Store, op: Op)
    ensures ApplyAll(s, [op]) == Merge(s, op.id, op.data)
  {
    var ops := [op];
    assert ops[..0] == [];
    ApplyAllStep(s, ops);
    var u := Merge(s, op.id, op.data);
    assert [] + u.events == u.events;
  }

  /** Every notification of a commit shows a single "modified" change. */
  lemma {:induction false} ApplyAllEventsModified(s: Store, ops: seq<Op>)
    ensures forall n :: n in ApplyAll(s, ops).events ==> SingleModified(n)
    decreases |ops|
  {
    if |ops| > 0 {
      var init := ops[..|ops| - 1];
      ApplyAllEventsModified(s, init);
      ApplyAllStep(s, ops);
      var t := ApplyAll(s, init);
      MergeEventsModified(t.store, Last(ops).id, Last(ops).data);
    }
  }

  /** Every notification of one merge shows a single "modified" change. */
  lemma MergeEventsModified(s: Store, id: Id, data: Fields)
    ensures forall n :: n in Merge(s, id, data).events ==> SingleModified(n)
  {
    var events := Merge(s, id, data).events;
    forall n | n in events
      ensures SingleModified(n)
    {
      var i :| 0 <= i < |events| && events[i] == n;
    }
  }

  lemma MultiplyStep(k: nat, m: nat)
    requires k >= 1
    ensures k * m == (k - 1) * m + m
  {
  }

  /** Applying one more queued operation extends the applied prefix by one. */
  lemma ApplyAllPrefixStep(s: Store, ops: seq<Op>, i: nat)
    requires i < |ops|
    ensures var t := ApplyAll(s, ops[..i]);
            var u := Merge(t.store, ops[i].id, ops[i].data);
            ApplyAll(s, ops[..i + 1]) == Transition(u.store, t.events + u.events)
  {
    var done := ops[..i + 1];
    assert done[..i] == ops[..i] && Last(done) == ops[i];
    ApplyAllStep(s, done);
  }

  /** `batch.commit()`: runs the queued operations in order. */
  method Commit(s: Store, b: Batch) returns (r: Store, events: seq<Notification>)
    ensures Transition(r, events) == ApplyAll(s, b.ops)
  {
    r := s;
    events := [];
    var i := 0;
    while i < |b.ops|
      invariant 0 <= i <= |b.ops|
      invariant Transition(r, events) == ApplyAll(s, b.ops[..i])
    {
      var op := b.ops[i];
      var t := Merge(r, op.id, op.data);
      ApplyAllPrefixStep(s, b.ops, i);
      r := t.store;
      events := events + t.events;
      i := i + 1;
    }
    assert b.ops[..i] == b.ops;
  }
}

=== FILE: common.dfy ===
/** A lookup result: `None` stands for JavaScript's `undefined` from a missing key. */
module Wrappers {

  datatype Option<T> = None | Some(value: T)
}

/** Searching and comparing sequences, as the source does with arrays. */
module Seqs {

  /** JavaScript's `xs.indexOf(x)` (and `findIndex` with an equality test):
      the first position holding `x`, or -1 when there is none. */
  function IndexOf<T(==)>(xs: seq<T>, x: T): (r: int)
    ensures -1 <= r < |xs|
    ensures r == -1 <==> x !in xs
    ensures r >= 0 ==> xs[r] == x && x !in xs[..r]
  {
    if |xs| == 0 then -1
    else if xs[0] == x then 0
    else
      var k := IndexOf(xs[1..], x);
      assert k >= 0 ==> xs[..k + 1] == [xs[0]] + xs[1..][..k];
      if k == -1 then -1 else k + 1
  }

  /** An element whose earlier positions all differ from it is found at its own position. */
  lemma IndexOfFirst<T>(xs: seq<T>, x: T, k: nat)
    requires k < |xs| && xs[k] == x && x !in xs[..k]
    ensures IndexOf(xs, x) == k
  {
    var r := IndexOf(xs, x);
    assert forall j :: 0 <= j < k ==> xs[j] != x by {
      forall j | 0 <= j < k
        ensures xs[j] != x
      {
        assert xs[..k][j] == xs[j];
      }
    }
    assert forall j :: 0 <= j < r ==> xs[j] != x by {
      forall j | 0 <= j < r
        ensures xs[j] != x
      {
        assert xs[..r][j] == xs[j];
      }
    }
  }

  /** The last element, `xs[xs.length - 1]`. */
  function Last<T>(xs: seq<T>): T
    requires |xs| > 0
  {
    xs[|xs| - 1]
  }

  /** JavaScript's `xs.slice(0, n)` for n >= 0: at most the first n elements. */
  function Take<T>(xs: seq<T>, n: nat): (r: seq<T>)
    ensures |r| == if n < |xs| then n else |xs|
    ensures r == xs[..|r|]
  {
    if n < |xs| then xs[..n] else xs
  }

  /** `a` can be obtained from `b` by deleting elements: the order of `b` is kept. */
  predicate IsSubsequence<T(==)>(a: seq<T>, b: seq<T>)
    decreases |b|
  {
    if |a| == 0 then true
    else if |b| == 0 then false
    else (a[0] == b[0] && IsSubsequence(a[1..], b[1..])) || IsSubsequence(a, b[1..])
  }
}

=== FILE: navigation.dfy ===
/**
 The navigation menu's location logic: the site-root prefix put in front of
 every link, and the choice of the link marked "active". Both are computed
 from `window.location`, which is modelled as a plain record.
 */
module Navigation {
  import opened Paths
  import opened Seqs

  /** The three parts of `window.location` the menu reads. */
  datatype Location = Location(pathname: string, hostname: string, protocol: string)

  /** The directory name of the site's repository on a local checkout. */
  const RepoSegment := "chrriedel.github.io"
  const PagesHostSuffix := "github.io"
  const FileProtocol := "file:"
  const ArticlesDir := "articles"
  const HtmlSuffix := ".html"

  /** The link targets the menu asks `isActive` about. */
  const IndexPage := "index.html"
  const RepositoriesPage := "repositories.html"
  const AboutPage := "about.html"
  const ArticlesLink := "articles"
  const ArticlesIndexPage := "articles.html"
  const MainPages := {IndexPage, RepositoriesPage, AboutPage}

  /** The two class names `isActive` returns. */
  const Active := "active"
  const Inactive := ""

  predicate OnPagesHost(loc: Location)
  {
    EndsWith(loc.hostname, PagesHostSuffix)
  }

  /** False only in the `file:` branch when no segment names the repository directory. */
  predicate FileRootFound(loc: Location)
  {
    !(loc.protocol == FileProtocol && !OnPagesHost(loc) && RepoSegment !in BaseSegments(loc.pathname))
  }

  /** No two adjacent slashes: a link prefix that a browser reads as a path. */
  predicate NoDoubleSlash(s: string)
  {
    forall i :: 0 < i < |s| && s[i] == '/' ==> s[i - 1] != '/'
  }

  // ---------------------------------------------------------------------
  // Site root
  // ---------------------------------------------------------------------

  /** Drops a trailing segment ending in ".html", then a trailing "articles". */
  function Trim(segs: seq<string>): (r: seq<string>)
    ensures |r| <= |segs| && r == segs[..|r|]
    ensures |segs| - 2 <= |r|
    ensures |segs| > 0 && EndsWith(Last(segs), HtmlSuffix) ==> |r| < |segs|
    ensures |r| < |segs| ==> EndsWith(Last(segs), HtmlSuffix) || Last(segs) == ArticlesDir
    ensures |r| == |segs| - 2 ==> EndsWith(Last(segs), HtmlSuffix) && segs[|segs| - 2] == ArticlesDir
    ensures |segs| >= 2 && EndsWith(Last(segs), HtmlSuffix) && segs[|segs| - 2] == ArticlesDir ==> |r| == |segs| - 2
    ensures |segs| > 0 && Last(segs) == ArticlesDir ==> |r| == |segs| - 1
  {
    var s1 := if |segs| > 0 && EndsWith(Last(segs), HtmlSuffix) then segs[..|segs| - 1] else segs;
    if |s1| > 0 && Last(s1) == ArticlesDir then s1[..|s1| - 1] else s1
  }

  /** The pathname's segments once the current page (and an articles directory) are removed. */
  function BaseSegments(pathname: string): (r: seq<string>)
    ensures |r| <= |Split(pathname, '/')| && r == Split(pathname, '/')[..|r|]
    ensures |Split(pathname, '/')| - 2 <= |r|
    ensures forall i :: 0 <= i < |r| ==> '/' !in r[i]
  {
    Trim(Split(pathname, '/'))
  }

  /** The segments through the first one equal to `name`, joined and followed
      by "/", or "" when no segment is `name`. */
  function PrefixThrough(base: seq<string>, name: string): (r: string)
    ensures name !in base ==> r == ""
    ensures name in base ==> EndsWith(r, "/")
  {
    var i := IndexOf(base, name);
    if i != -1 then Join(base[..i + 1], '/') + "/" else ""
  }

  /** The `file:` branch: everything through the repository directory, or "" without one. */
  function FileRoot(base: seq<string>): (r: string)
    ensures RepoSegment !in base ==> r == ""
    ensures RepoSegment in base ==> EndsWith(r, "/")
  {
    PrefixThrough(base, RepoSegment)
  }

  /** The GitHub Pages branch exactly as the menu computes it: the first two
      segments joined, then "/" appended unconditionally. */
  function PagesRootAsWritten(base: seq<string>): (r: string)
    ensures EndsWith(r, "/")
  {
    Join(Take(base, 2), '/') + "/"
  }

  /** The GitHub Pages branch as intended: "/" is appended only when the joined
      segments do not already end in one. */
  function PagesRoot(base: seq<string>): (r: string)
    ensures EndsWith(r, "/")
    ensures PagesRootAsWritten(base) == r || PagesRootAsWritten(base) == r + "/"
  {
    var p := Join(Take(base, 2), '/');
    if EndsWith(p, "/") then p else p + "/"
  }

  /** The site-root prefix of the navigation menu, branch for branch as written. */
  function SiteRootAsWritten(loc: Location): (r: string)
    ensures FileRootFound(loc) ==> EndsWith(r, "/")
    ensures !OnPagesHost(loc) && loc.protocol != FileProtocol ==> r == "/"
  {
    var base := BaseSegments(loc.pathname);
    if OnPagesHost(loc) then PagesRootAsWritten(base)
    else if loc.protocol == FileProtocol then FileRoot(base)
    else "/"
  }

  /** The site-root prefix with the GitHub Pages branch corrected; it differs
      from the code as written only by one extra trailing "/" there. */
  function SiteRoot(loc: Location): (r: string)
    ensures FileRootFound(loc) ==> EndsWith(r, "/")
    ensures !OnPagesHost(loc) && loc.protocol != FileProtocol ==> r == "/"
    ensures SiteRootAsWritten(loc) == r || (OnPagesHost(loc) && SiteRootAsWritten(loc) == r + "/")
  {
    var base := BaseSegments(loc.pathname);
    if OnPagesHost(loc) then PagesRoot(base)
    else if loc.protocol == FileProtocol then FileRoot(base)
    else "/"
  }

  // ---------------------------------------------------------------------
  // Active link
  // ---------------------------------------------------------------------

  /** The non-empty segments of the pathname, without the repository name on GitHub Pages. */
  function PageSegments(loc: Location): (r: seq<string>)
    ensures forall i :: 0 <= i < |r| ==> r[i] != "" && '/' !in r[i]
  {
    var all := Split(loc.pathname, '/');
    var segs := NonEmpty(all);
    assert forall i :: 0 <= i < |segs| ==> segs[i] in all;
    if OnPagesHost(loc) then (if |segs| == 0 then [] else segs[1..]) else segs
  }

  /** `pathSegments[pathSegments.length - 1] || ''`. */
  function CurrentPage(loc: Location): (r: string)
    ensures r == "" <==> |PageSegments(loc)| == 0
    ensures r != "" ==> r in PageSegments(loc) && '/' !in r
  {
    var segs := PageSegments(loc);
    if |segs| == 0 then "" else Last(segs)
  }

  /** The test `isActive` applies to the "articles" link. */
  predicate OnArticlesPage(loc: Location)
  {
    ArticlesLink in PageSegments(loc) || EndsWith(loc.pathname, ArticlesIndexPage)
  }

  /** The class of the link to `path`: "active" or "". */
  function IsActive(loc: Location, path: string): (r: string)
    ensures r == Active || r == Inactive
    ensures path == ArticlesLink && OnArticlesPage(loc) ==> r == Active
    ensures path != ArticlesLink && path != "" && path !in PageSegments(loc) ==>
              r == Inactive || (path == IndexPage && CurrentPage(loc) == "")
    ensures path == CurrentPage(loc) ==> r == Active
    ensures CurrentPage(loc) == "" && path == IndexPage ==> r == Active
  {
    if path == ArticlesLink && OnArticlesPage(loc) then Active
    else
      var current := CurrentPage(loc);
      if current == path || (current == "" && path == IndexPage) then Active else Inactive
  }
}

=== FILE: navigation_properties.dfy ===
/**
 What the navigation menu's location logic guarantees, stated over whole
 pathnames: which prefix a page in a given directory gets, and which link
 a given page highlights.
 */
module NavigationProperties {
  import opened Paths
  import opened Seqs
  import opened Navigation

  // ---------------------------------------------------------------------
  // Helpers about segments
  // ---------------------------------------------------------------------

  /** Trimming never reaches into a prefix whose last segment is not "articles". */
  lemma TrimKeepsPrefix(a: seq<string>, b: seq<string>)
    requires |a| >= 1 && |b| >= 1
    requires Last(a) != ArticlesDir
    ensures |Trim(a + b)| >= |a|
    ensures Trim(a + b)[..|a|] == a
  {
    var s := a + b;
    var r := Trim(s);
    assert s[|s| - 2] == Last(a) || |b| >= 2;
    assert r[..|a|] == s[..|a|];
  }

  /** The segments of a pathname built from a directory and a separator-free name. */
  lemma SplitBelow(dir: string, name: string)
    requires '/' !in name
    ensures Split(dir + "/" + name, '/') == Split(dir, '/') + [name]
  {
    assert dir + "/" + name == dir + ['/'] + name;
    SplitAppend(dir, name, '/');
    SplitWithoutSeparator(name, '/');
  }

  /** The segments of a pathname built from a directory, a separator-free name and a tail. */
  lemma SplitThrough(dir: string, name: string, rest: string)
    requires '/' !in name
    ensures Split(dir + "/" + name + "/" + rest, '/') == Split(dir, '/') + [name] + Split(rest, '/')
    ensures Split(dir + "/" + name, '/') == Split(dir, '/') + [name]
  {
    var head := dir + "/" + name;
    assert head + "/" + rest == head + ['/'] + rest;
    SplitAppend(head, rest, '/');
    SplitBelow(dir, name);
  }

  /** The base segments are a prefix of the raw ones, so they hold no name the raw ones lack. */
  lemma BaseWithin(pathname: string, x: string)
    requires x !in Split(pathname, '/')
    ensures x !in BaseSegments(pathname)
  {
    var base := BaseSegments(pathname);
    assert forall i :: 0 <= i < |base| ==> base[i] == Split(pathname, '/')[i];
  }

  // ---------------------------------------------------------------------
  // Site root
  // ---------------------------------------------------------------------

  /** Trimming a segment list that ends in a page name removes just that name,
      unless an articles directory precedes it. */
  lemma TrimPage(a: seq<string>, page: string)
    requires |a| >= 1 && Last(a) != ArticlesDir
    requires EndsWith(page, HtmlSuffix)
    ensures Trim(a + [page]) == a
  {
    var s := a + [page];
    assert Last(s) == page;
    assert s[..|s| - 1] == a;
  }

  /** A page inside an articles directory loses both its name and the
      directory, whatever precedes them. */
  lemma TrimArticlesPage(a: seq<string>, page: string)
    requires EndsWith(page, HtmlSuffix)
    ensures Trim(a + [ArticlesDir, page]) == a
  {
    var s2 := a + [ArticlesDir, page];
    assert Last(s2) == page;
    assert s2[..|s2| - 1] == a + [ArticlesDir];
    assert (a + [ArticlesDir])[..|a|] == a;
  }

  /** A page inside the articles directory loses both its name and the directory. */
  lemma ArticlesPageBase(dir: string, page: string)
    requires '/' !in page && EndsWith(page, HtmlSuffix)
    ensures BaseSegments(dir + "/" + ArticlesDir + "/" + page) == Split(dir, '/')
  {
    SplitThrough(dir, ArticlesDir, page);
    SplitWithoutSeparator(page, '/');
    assert Split(dir + "/" + ArticlesDir + "/" + page, '/') == Split(dir, '/') + [ArticlesDir, page];
    TrimArticlesPage(Split(dir, '/'), page);
  }

  /** A page directly in a directory loses its name; the directory stays. */
  lemma PageBase(dir: string, page: string)
    requires Last(Split(dir, '/')) != ArticlesDir
    requires '/' !in page && EndsWith(page, HtmlSuffix)
    ensures BaseSegments(dir + "/" + page) == Split(dir, '/')
  {
    assert dir + "/" + page == dir + ['/'] + page;
    SplitAppend(dir, page, '/');
    SplitWithoutSeparator(page, '/');
    TrimPage(Split(dir, '/'), page);
  }

  /** The articles index page loses its name; the directory before it stays. */
  lemma ArticlesIndexBase(dir: string)
    requires Last(Split(dir, '/')) != ArticlesDir
    ensures BaseSegments(dir + "/" + ArticlesIndexPage) == Split(dir, '/')
  {
    PageBase(dir, ArticlesIndexPage);
  }

  /** `/x/articles/foo.html` and `/x/articles.html` get the same site root on
      the same host, both as written and as corrected. */
  lemma ArticlesPageAndIndexShareRoot(dir: string, page: string, hostname: string, protocol: string)
    requires Last(Split(dir, '/')) != ArticlesDir
    requires '/' !in page && EndsWith(page, HtmlSuffix)
    ensures SiteRoot(Location(dir + "/" + ArticlesDir + "/" + page, hostname, protocol))
         == SiteRoot(Location(dir + "/" + ArticlesIndexPage, hostname, protocol))
    ensures SiteRootAsWritten(Location(dir + "/" + ArticlesDir + "/" + page, hostname, protocol))
         == SiteRootAsWritten(Location(dir + "/" + ArticlesIndexPage, hostname, protocol))
  {
    ArticlesPageBase(dir, page);
    ArticlesIndexBase(dir);
  }

  /** On GitHub Pages, any page under `/repo/` gets the prefix `/repo/`. */
  lemma {:induction false} PagesRootIsRepository(repo: string, rest: string, hostname: string, protocol: string)
    requires EndsWith(hostname, PagesHostSuffix)
    requires repo != "" && repo != ArticlesDir && '/' !in repo
    ensures SiteRoot(Location("/" + repo + "/" + rest, hostname, protocol)) == "/" + repo + "/"
    ensures SiteRootAsWritten(Location("/" + repo + "/" + rest, hostname, protocol)) == "/" + repo + "/"
  {
    var pathname := "/" + repo + "/" + rest;
    assert pathname == "" + "/" + repo + "/" + rest;
    SplitThrough("", repo, rest);
    assert Split("", '/') == [""];
    var a := [""] + [repo];
    assert Split(pathname, '/') == a + Split(rest, '/');
    TrimKeepsPrefix(a, Split(rest, '/'));
    var base := BaseSegments(pathname);
    assert Take(base, 2) == a;
    assert Join(a, '/') == "/" + repo by {
      assert a[1..] == [repo];
    }
    var p := "/" + repo;
    assert p[|p| - 1] == repo[|repo| - 1];
    assert repo[|repo| - 1] in repo;
    assert !EndsWith(p, "/");
  }

  /** Below the first directory called `name`, the trimmed segments reach
      `name` right after the segments of the directory above it. */
  lemma NameIndex(dir: string, name: string, rest: string)
    requires '/' !in name && name != ArticlesDir && name !in Split(dir, '/')
    ensures var base := BaseSegments(dir + "/" + name + "/" + rest);
            var k := |Split(dir, '/')|;
            IndexOf(base, name) == k && base[..k + 1] == Split(dir, '/') + [name]
  {
    var pathname := dir + "/" + name + "/" + rest;
    SplitThrough(dir, name, rest);
    var a := Split(dir, '/') + [name];
    TrimKeepsPrefix(a, Split(rest, '/'));
    var base := BaseSegments(pathname);
    var k := |Split(dir, '/')|;
    assert base[..k + 1] == a;
    assert base[..k] == Split(dir, '/');
    IndexOfFirst(base, name, k);
  }

  /** On a local checkout, a page anywhere below the repository directory gets
      the path of that directory as its prefix. */
  lemma FileRootIsRepositoryDirectory(dir: string, rest: string, hostname: string)
    requires !EndsWith(hostname, PagesHostSuffix)
    requires RepoSegment !in Split(dir, '/')
    ensures SiteRoot(Location(dir + "/" + RepoSegment + "/" + rest, hostname, FileProtocol))
         == dir + "/" + RepoSegment + "/"
    ensures SiteRootAsWritten(Location(dir + "/" + RepoSegment + "/" + rest, hostname, FileProtocol))
         == dir + "/" + RepoSegment + "/"
  {
    RepoSegmentIsName();
    PrefixThroughName(dir, RepoSegment, rest);
  }

  /** Below a directory without a segment `name`, the prefix through `name`
      is that directory followed by `name` and "/". */
  lemma PrefixThroughName(dir: string, name: string, rest: string)
    requires '/' !in name && name != ArticlesDir && name !in Split(dir, '/')
    ensures PrefixThrough(BaseSegments(dir + "/" + name + "/" + rest), name) == dir + "/" + name + "/"
  {
    var base := BaseSegments(dir + "/" + name + "/" + rest);
    var head := dir + "/" + name;
    var k := |Split(dir, '/')|;
    assert IndexOf(base, name) == k && base[..k + 1] == Split(dir, '/') + [name] by {
      NameIndex(dir, name, rest);
    }
    assert Join(Split(dir, '/') + [name], '/') == head by {
      SplitBelow(dir, name);
      JoinSplit(head, '/');
    }
    PrefixThroughIndex(base, name, k, head);
  }

  /** The prefix through the segment found at index `k` is the join of the
      segments up to and including it, followed by "/". */
  lemma PrefixThroughIndex(base: seq<string>, name: string, k: nat, head: string)
    requires k < |base| && IndexOf(base, name) == k && Join(base[..k + 1], '/') == head
    ensures PrefixThrough(base, name) == head + "/"
  {
  }

  /** The repository directory is one path segment and is not the articles directory. */
  lemma RepoSegmentIsName()
    ensures '/' !in RepoSegment && RepoSegment != ArticlesDir
  {
    assert RepoSegment[0] != ArticlesDir[0];
  }

  /** On a local checkout outside the repository directory the prefix is empty. */
  lemma FileRootMissing(loc: Location)
    requires loc.protocol == FileProtocol && !OnPagesHost(loc)
    requires RepoSegment !in Split(loc.pathname, '/')
    ensures SiteRoot(loc) == ""
    ensures SiteRootAsWritten(loc) == ""
  {
    BaseWithin(loc.pathname, RepoSegment);
  }

  /** Whenever the site root is not empty, it is a prefix of the pathname
      followed by "/": links never leave the directory the page is served from. */
  lemma {:induction false} SiteRootIsPathPrefix(loc: Location)
    requires FileRootFound(loc)
    ensures |SiteRoot(loc)| >= 1 && |SiteRoot(loc)| - 1 <= |loc.pathname|
    ensures SiteRoot(loc) == loc.pathname[..|SiteRoot(loc)| - 1] + "/"
    ensures |SiteRootAsWritten(loc)| >= 1 && |SiteRootAsWritten(loc)| - 1 <= |loc.pathname|
    ensures SiteRootAsWritten(loc) == loc.pathname[..|SiteRootAsWritten(loc)| - 1] + "/"
  {
    if OnPagesHost(loc) {
      PagesRootsArePathPrefixes(loc.pathname);
    } else if loc.protocol == FileProtocol {
      var base := BaseSegments(loc.pathname);
      BasePrefixIsPathPrefix(loc.pathname, IndexOf(base, RepoSegment) + 1);
    }
  }

  /** Both GitHub Pages roots are a prefix of the pathname followed by "/". */
  lemma PagesRootsArePathPrefixes(pathname: string)
    ensures var r := PagesRoot(BaseSegments(pathname));
            |r| >= 1 && |r| - 1 <= |pathname| && r == pathname[..|r| - 1] + "/"
    ensures var r := PagesRootAsWritten(BaseSegments(pathname));
            |r| >= 1 && |r| - 1 <= |pathname| && r == pathname[..|r| - 1] + "/"
  {
    var p := Join(Take(BaseSegments(pathname), 2), '/');
    PagesJoinIsPathPrefix(pathname);
    PrefixThenSlash(pathname, p);
  }

  /** The first two base segments, joined, are a prefix of the pathname. */
  lemma PagesJoinIsPathPrefix(pathname: string)
    ensures var p := Join(Take(BaseSegments(pathname), 2), '/');
            |p| <= |pathname| && p == pathname[..|p|]
  {
    var base := BaseSegments(pathname);
    var t := Take(base, 2);
    assert t == base[..|t|];
    BasePrefixIsPathPrefix(pathname, |t|);
  }

  /** A prefix followed by "/", or a prefix already ending in "/", is a
      prefix of the pathname followed by "/". */
  lemma PrefixThenSlash(pathname: string, p: string)
    requires |p| <= |pathname| && p == pathname[..|p|]
    ensures var r := p + "/"; |r| >= 1 && |r| - 1 <= |pathname| && r == pathname[..|r| - 1] + "/"
    ensures EndsWith(p, "/") ==> |p| >= 1 && |p| - 1 <= |pathname| && p == pathname[..|p| - 1] + "/"
  {
    if EndsWith(p, "/") {
      assert p == p[..|p| - 1] + "/";
      assert p[..|p| - 1] == pathname[..|p| - 1];
    }
  }

  /** The first `m` base segments, joined, are a prefix of the pathname. */
  lemma BasePrefixIsPathPrefix(pathname: string, m: nat)
    requires m <= |BaseSegments(pathname)|
    ensures var p := Join(BaseSegments(pathname)[..m], '/');
            |p| <= |pathname| && p == pathname[..|p|]
  {
    var base := BaseSegments(pathname);
    if m >= 1 {
      assert base[..m] == Split(pathname, '/')[..m];
      JoinOfSplitPrefix(pathname, '/', m);
    }
  }

  /** Joining one separator-free segment and a slash leaves no double slash. */
  lemma OneSegmentNoDoubleSlash(a: string)
    requires '/' !in a
    ensures NoDoubleSlash(a + "/")
  {
    var s := a + "/";
    forall i | 0 < i < |s| && s[i] == '/'
      ensures s[i - 1] != '/'
    {
      assert s[i - 1] == a[i - 1];
    }
  }

  /** Two separator-free segments, the second non-empty, joined and closed by a slash. */
  lemma TwoSegmentsNoDoubleSlash(a: string, b: string)
    requires '/' !in a && '/' !in b && b != ""
    ensures NoDoubleSlash(a + "/" + b + "/")
  {
    var s := a + "/" + b + "/";
    forall i | 0 < i < |s| && s[i] == '/'
      ensures s[i - 1] != '/'
    {
      if i == |a| {
        assert s[i - 1] == a[i - 1];
      } else {
        assert i == |a| + 1 + |b|;
        assert s[i - 1] == b[|b| - 1];
      }
    }
  }

  /** The corrected GitHub Pages prefix never holds two adjacent slashes. */
  lemma PagesSiteRootNoDoubleSlash(loc: Location)
    requires OnPagesHost(loc)
    ensures NoDoubleSlash(SiteRoot(loc))
  {
    var base := BaseSegments(loc.pathname);
    var t := Take(base, 2);
    assert forall j :: 0 <= j < |t| ==> t[j] == Split(loc.pathname, '/')[j];
    var p := Join(t, '/');
    if |t| == 0 {
      OneSegmentNoDoubleSlash("");
    } else if |t| == 1 {
      OneSegmentNoDoubleSlash(t[0]);
    } else {
      assert t[1..] == [t[1]];
      assert Join(t[1..], '/') == t[1];
      assert p == t[0] + "/" + t[1];
      if t[1] == "" {
        assert p == t[0] + "/";
        OneSegmentNoDoubleSlash(t[0]);
      } else {
        var q := t[0] + "/" + t[1];
        assert q[|q| - 1] == t[1][|t[1]| - 1];
        assert t[1][|t[1]| - 1] in t[1];
        assert !EndsWith(q, "/");
        TwoSegmentsNoDoubleSlash(t[0], t[1]);
      }
    }
  }

  /** The root page of a GitHub Pages user site: as written the prefix is "//",
      which a browser reads as the start of a host name. */
  lemma PagesRootPageDoubleSlash()
    ensures SiteRootAsWritten(Location("/", "chrriedel.github.io", "https:")) == "//"
    ensures !NoDoubleSlash(SiteRootAsWritten(Location("/", "chrriedel.github.io", "https:")))
    ensures SiteRoot(Location("/", "chrriedel.github.io", "https:")) == "/"
  {
    var loc := Location("/", "chrriedel.github.io", "https:");
    assert "/" == "" + ['/'] + "";
    SplitAppend("", "", '/');
    assert Split("/", '/') == ["", ""];
    assert BaseSegments("/") == ["", ""];
    assert Join(["", ""], '/') == "/" by {
      assert ["", ""][1..] == [""];
    }
    assert OnPagesHost(loc);
    var r := SiteRootAsWritten(loc);
    assert r == "//";
    assert r[1] == '/' && r[0] == '/';
  }

  // ---------------------------------------------------------------------
  // Active link
  // ---------------------------------------------------------------------

  /** The "articles" link is active exactly on a page with an articles segment
      or a pathname ending in "articles.html". */
  lemma ArticlesActiveIff(loc: Location)
    ensures IsActive(loc, ArticlesLink) == Active <==> OnArticlesPage(loc)
  {
    var segs := PageSegments(loc);
    if |segs| > 0 && Last(segs) == ArticlesLink {
      assert segs[|segs| - 1] in segs;
    }
  }

  /** Of the profile, repositories and about links at most one is active, and
      when the pathname leaves no page segment it is the profile link. */
  lemma AtMostOneMainPageActive(loc: Location)
    ensures forall p, q :: p in MainPages && q in MainPages && p != q
              ==> IsActive(loc, p) == Inactive || IsActive(loc, q) == Inactive
    ensures PageSegments(loc) == [] ==> IsActive(loc, IndexPage) == Active
    ensures PageSegments(loc) == [] ==> IsActive(loc, RepositoriesPage) == Inactive && IsActive(loc, AboutPage) == Inactive
  {
  }

  /** Off GitHub Pages, the current page is the pathname's last segment. */
  lemma LastSegmentIsCurrentPage(dir: string, page: string, hostname: string, protocol: string)
    requires !EndsWith(hostname, PagesHostSuffix)
    requires page != "" && '/' !in page
    ensures CurrentPage(Location(dir + "/" + page, hostname, protocol)) == page
  {
    SplitBelow(dir, page);
    NonEmptyAppend(Split(dir, '/'), [page]);
    assert NonEmpty([page]) == [page];
  }

  /** On a host not serving GitHub Pages, the link named by the pathname's last
      segment is the one main-page link that is active. */
  lemma LastSegmentSelectsLink(dir: string, page: string, hostname: string, protocol: string)
    requires !EndsWith(hostname, PagesHostSuffix)
    requires page != "" && '/' !in page
    ensures forall q :: q in MainPages ==>
              (IsActive(Location(dir + "/" + page, hostname, protocol), q) == Active <==> q == page)
  {
    LastSegmentIsCurrentPage(dir, page, hostname, protocol);
  }

  /** On GitHub Pages the code treats the first segment as a repository name, so a single-segment
      pathname such as `/about.html` leaves no page and the profile link is the
      active one. */
  lemma {:induction false} PagesHostIgnoresFirstSegment(page: string, hostname: string, protocol: string)
    requires EndsWith(hostname, PagesHostSuffix)
    requires page != "" && '/' !in page
    ensures PageSegments(Location("/" + page, hostname, protocol)) == []
    ensures forall q :: q in MainPages ==>
              (IsActive(Location("/" + page, hostname, protocol), q) == Active <==> q == IndexPage)
  {
    PagesOnePageNoSegments(page, hostname, protocol);
  }

  /** The host decides only whether the first segment is dropped: on GitHub
      Pages the page segments are those seen on any other host without the
      first one. */
  lemma PagesDropsFirstSegment(pathname: string, pages: string, other: string, protocol: string)
    requires EndsWith(pages, PagesHostSuffix) && !EndsWith(other, PagesHostSuffix)
    ensures var elsewhere := PageSegments(Location(pathname, other, protocol));
            PageSegments(Location(pathname, pages, protocol)) ==
              if |elsewhere| == 0 then [] else elsewhere[1..]
  {
  }

  /** On GitHub Pages too the current page is the pathname's last segment,
      once a segment before it has taken the repository's place. */
  lemma PagesLastSegmentIsCurrentPage(dir: string, page: string, hostname: string, protocol: string)
    requires EndsWith(hostname, PagesHostSuffix)
    requires NonEmpty(Split(dir, '/')) != []
    requires page != "" && '/' !in page
    ensures CurrentPage(Location(dir + "/" + page, hostname, protocol)) == page
  {
    SplitBelow(dir, page);
    NonEmptyAppend(Split(dir, '/'), [page]);
    assert NonEmpty([page]) == [page];
  }

  /** On GitHub Pages, with a segment before it, the link named by the
      pathname's last segment is the one main-page link that is active. */
  lemma PagesLastSegmentSelectsLink(dir: string, page: string, hostname: string, protocol: string)
    requires EndsWith(hostname, PagesHostSuffix)
    requires NonEmpty(Split(dir, '/')) != []
    requires page != "" && '/' !in page
    ensures forall q :: q in MainPages ==>
              (IsActive(Location(dir + "/" + page, hostname, protocol), q) == Active <==> q == page)
  {
    var loc := Location(dir + "/" + page, hostname, protocol);
    PagesLastSegmentIsCurrentPage(dir, page, hostname, protocol);
    CurrentPageSelectsLink(loc);
  }

  /** Whatever the host, a non-empty current page makes its own main-page link
      the only active one. */
  lemma CurrentPageSelectsLink(loc: Location)
    requires CurrentPage(loc) != ""
    ensures forall q :: q in MainPages ==> (IsActive(loc, q) == Active <==> q == CurrentPage(loc))
  {
  }

  /** On GitHub Pages a top-level page such as `/about.html` has the site root
      `/`, as written and as corrected. */
  lemma PagesTopLevelPage(page: string, hostname: string, protocol: string)
    requires EndsWith(hostname, PagesHostSuffix)
    requires '/' !in page && EndsWith(page, HtmlSuffix)
    ensures SiteRootAsWritten(Location("/" + page, hostname, protocol)) == "/"
    ensures SiteRoot(Location("/" + page, hostname, protocol)) == "/"
  {
    assert Split("", '/') == [""];
    PageBase("", page);
    assert "" + "/" + page == "/" + page;
    assert Take([""], 2) == [""];
    assert Join([""], '/') == "";
  }

  /** On GitHub Pages a pathname `/repo/page` keeps only `page` once the
      repository name is dropped, and that page's link is the one main-page
      link that is active. */
  lemma PagesSecondSegmentSelectsLink(repo: string, page: string, hostname: string, protocol: string)
    requires EndsWith(hostname, PagesHostSuffix)
    requires repo != "" && '/' !in repo
    requires page != "" && '/' !in page
    ensures PageSegments(Location("/" + repo + "/" + page, hostname, protocol)) == [page]
    ensures forall q :: q in MainPages ==>
              (IsActive(Location("/" + repo + "/" + page, hostname, protocol), q) == Active <==> q == page)
  {
    PagesSecondSegment(repo, page, hostname, protocol);
  }

  /** On GitHub Pages the page segments of `/repo/page` are just `page`. */
  lemma PagesSecondSegment(repo: string, page: string, hostname: string, protocol: string)
    requires EndsWith(hostname, PagesHostSuffix)
    requires repo != "" && '/' !in repo
    requires page != "" && '/' !in page
    ensures PageSegments(Location("/" + repo + "/" + page, hostname, protocol)) == [page]
  {
    SplitRepoPage(repo, page);
    NonEmptyDropsLeadingEmpty(repo, page);
  }

  /** The segments of `/repo/page`: an empty one, then the two names. */
  lemma SplitRepoPage(repo: string, page: string)
    requires '/' !in repo && '/' !in page
    ensures Split("/" + repo + "/" + page, '/') == ["", repo, page]
  {
    var head := "/" + repo;
    assert head == "" + ['/'] + repo;
    SplitAppend("", repo, '/');
    SplitWithoutSeparator(repo, '/');
    assert head + "/" + page == head + ['/'] + page;
    SplitAppend(head, page, '/');
    SplitWithoutSeparator(page, '/');
  }

  /** Filtering `["", repo, page]` drops just the empty segment. */
  lemma NonEmptyDropsLeadingEmpty(repo: string, page: string)
    requires repo != "" && page != ""
    ensures NonEmpty(["", repo, page]) == [repo, page]
  {
    var all := ["", repo, page];
    assert all[1..] == [repo, page];
    assert [repo, page][1..] == [page];
    assert [page][1..] == [];
    assert NonEmpty([page]) == [page];
    assert NonEmpty([repo, page]) == [repo] + NonEmpty([page]);
    assert NonEmpty(all) == NonEmpty([repo, page]);
  }

  /** On GitHub Pages the one segment of `/page` is dropped as the repository name. */
  lemma PagesOnePageNoSegments(page: string, hostname: string, protocol: string)
    requires EndsWith(hostname, PagesHostSuffix)
    requires page != "" && '/' !in page
    ensures PageSegments(Location("/" + page, hostname, protocol)) == []
  {
    OnePageSegment(page);
  }

  /** A one-segment pathname keeps just that segment after filtering. */
  lemma OnePageSegment(page: string)
    requires page != "" && '/' !in page
    ensures NonEmpty(Split("/" + page, '/')) == [page]
  {
    assert "/" + page == "" + ['/'] + page;
    SplitAppend("", page, '/');
    SplitWithoutSeparator(page, '/');
    assert Split("/" + page, '/') == ["", page];
    assert ["", page][1..] == [page];
    assert [page][1..] == [];
  }
}

=== FILE: paths.dfy ===
/**
 The string and sequence operations that the navigation menu performs on
 `window.location.pathname`: JavaScript's `split` with a one-character
 separator (which keeps empty segments), `join`, `filter(Boolean)` on strings
 (which drops empty ones) and `endsWith`.
 */
module Paths {
  import opened Seqs

  /** The segments of `s` between occurrences of `sep`, empty ones included,
      as JavaScript's `s.split(sep)` returns them. */
  function Split(s: string, sep: char): (r: seq<string>)
    ensures |r| >= 1
    ensures forall i :: 0 <= i < |r| ==> sep !in r[i]
    decreases |s|
  {
    if |s| == 0 then [""]
    else if s[0] == sep then [""] + Split(s[1..], sep)
    else
      var rest := Split(s[1..], sep);
      [[s[0]] + rest[0]] + rest[1..]
  }

  /** JavaScript's `parts.join(sep)`: the empty array joins to "". */
  function Join(parts: seq<string>, sep: char): (r: string)
    ensures |parts| == 0 ==> r == ""
    ensures |r| >= |parts| - 1
  {
    if |parts| == 0 then ""
    else if |parts| == 1 then parts[0]
    else parts[0] + [sep] + Join(parts[1..], sep)
  }

  /** `xs.filter(Boolean)` on strings: keeps the non-empty ones, in order. */
  function NonEmpty(xs: seq<string>): (r: seq<string>)
    ensures |r| <= |xs|
    ensures forall i :: 0 <= i < |r| ==> r[i] != ""
    ensures forall x :: x in r <==> x in xs && x != ""
    ensures IsSubsequence(r, xs)
    ensures multiset(r) == multiset(xs)["" := 0]
  {
    if |xs| == 0 then []
    else
      var rest := NonEmpty(xs[1..]);
      assert xs == [xs[0]] + xs[1..];
      if xs[0] == "" then
        assert multiset(xs) == multiset{""} + multiset(xs[1..]);
        rest
      else
        assert ([xs[0]] + rest)[1..] == rest;
        [xs[0]] + rest
  }

  /** JavaScript's `s.endsWith(suffix)`. */
  predicate EndsWith(s: string, suffix: string)
  {
    |suffix| <= |s| && s[|s| - |suffix|..] == suffix
  }

  /** A string without the separator is a single segment. */
  lemma {:induction false} SplitWithoutSeparator(s: string, sep: char)
    requires sep !in s
    ensures Split(s, sep) == [s]
    decreases |s|
  {
    if |s| > 0 {
      assert s[0] != sep;
      SplitWithoutSeparator(s[1..], sep);
      assert [s[0]] + s[1..] == s;
    }
  }

  /** Splitting at one separator occurrence concatenates the two splits. */
  lemma {:induction false} SplitAppend(a: string, b: string, sep: char)
    ensures Split(a + [sep] + b, sep) == Split(a, sep) + Split(b, sep)
    decreases |a|
  {
    if |a| == 0 {
      assert a + [sep] + b == [sep] + b;
      assert ([sep] + b)[1..] == b;
    } else {
      assert (a + [sep] + b)[0] == a[0];
      assert (a + [sep] + b)[1..] == a[1..] + [sep] + b;
      SplitAppend(a[1..], b, sep);
    }
  }

  /** Joining the segments of a split gives back the string. */
  lemma {:induction false} JoinSplit(s: string, sep: char)
    ensures Join(Split(s, sep), sep) == s
    decreases |s|
  {
    if |s| > 0 {
      JoinSplit(s[1..], sep);
      var rest := Split(s[1..], sep);
      if s[0] == sep {
        assert Split(s, sep) == [""] + rest;
        assert ([""] + rest)[1..] == rest;
      } else {
        JoinConsFirst(s[0], rest, sep);
      }
    }
  }

  /** Prepending a character to the first part prepends it to the joined string. */
  lemma {:induction false} JoinConsFirst(c: char, parts: seq<string>, sep: char)
    requires |parts| >= 1
    ensures Join([[c] + parts[0]] + parts[1..], sep) == [c] + Join(parts, sep)
  {
    var q := [[c] + parts[0]] + parts[1..];
    assert q[0] == [c] + parts[0];
    if |parts| > 1 {
      assert q[1..] == parts[1..];
    }
  }

  /** Splitting a join of separator-free parts gives back the parts. */
  lemma {:induction false} SplitJoin(parts: seq<string>, sep: char)
    requires |parts| >= 1
    requires forall i :: 0 <= i < |parts| ==> sep !in parts[i]
    ensures Split(Join(parts, sep), sep) == parts
    decreases |parts|
  {
    SplitWithoutSeparator(parts[0], sep);
    if |parts| > 1 {
      SplitJoin(parts[1..], sep);
      SplitAppend(parts[0], Join(parts[1..], sep), sep);
      assert [parts[0]] + parts[1..] == parts;
    }
  }

  /** The join of a non-empty prefix of a split is a prefix of the string. */
  lemma {:induction false} JoinOfSplitPrefix(s: string, sep: char, k: nat)
    requires 1 <= k <= |Split(s, sep)|
    ensures |Join(Split(s, sep)[..k], sep)| <= |s|
    ensures Join(Split(s, sep)[..k], sep) == s[..|Join(Split(s, sep)[..k], sep)|]
    decreases |s|
  {
    if |s| > 0 {
      var rest := Split(s[1..], sep);
      if s[0] == sep {
        assert Split(s, sep) == [""] + rest;
        if k == 1 {
          assert Split(s, sep)[..k] == [""];
        } else {
          var fewer: nat := k - 1;
          JoinOfSplitPrefix(s[1..], sep, fewer);
          assert Split(s, sep)[..k] == [""] + rest[..fewer];
          PrefixAfterSeparator(s, sep, rest[..fewer]);
        }
      } else {
        JoinOfSplitPrefix(s[1..], sep, k);
        var p := rest[..k];
        assert Split(s, sep)[..k] == [[s[0]] + p[0]] + p[1..];
        JoinConsFirst(s[0], p, sep);
      }
    }
  }

  /** A prefix of the string after a leading separator, joined behind an
      empty first segment, is a prefix of the whole string. */
  lemma PrefixAfterSeparator(s: string, sep: char, q: seq<string>)
    requires |s| > 0 && s[0] == sep && |q| >= 1
    requires |Join(q, sep)| <= |s| - 1 && Join(q, sep) == s[1..][..|Join(q, sep)|]
    ensures |Join([""] + q, sep)| <= |s|
    ensures Join([""] + q, sep) == s[..|Join([""] + q, sep)|]
  {
    var parts := [""] + q;
    assert parts[0] == "" && parts[1..] == q;
    assert Join(parts, sep) == [sep] + Join(q, sep);
  }

  /** The joined string starts with the first part, followed by the
      separator when a second part follows. */
  lemma JoinStartsWithFirst(parts: seq<string>, sep: char)
    requires |parts| >= 1
    ensures |parts[0]| <= |Join(parts, sep)| && Join(parts, sep)[..|parts[0]|] == parts[0]
    ensures |parts| >= 2 ==> |parts[0]| < |Join(parts, sep)| && Join(parts, sep)[|parts[0]|] == sep
  {
  }

  /** Filtering distributes over concatenation. */
  lemma {:induction false} NonEmptyAppend(a: seq<string>, b: seq<string>)
    ensures NonEmpty(a + b) == NonEmpty(a) + NonEmpty(b)
    decreases |a|
  {
    if |a| > 0 {
      assert (a + b)[0] == a[0];
      assert (a + b)[1..] == a[1..] + b;
      NonEmptyAppend(a[1..], b);
      if a[0] == "" {
        assert NonEmpty(a + b) == NonEmpty(a[1..] + b);
      } else {
        assert NonEmpty(a + b) == [a[0]] + NonEmpty(a[1..] + b);
        assert NonEmpty(a) == [a[0]] + NonEmpty(a[1..]);
        assert [a[0]] + (NonEmpty(a[1..]) + NonEmpty(b)) == ([a[0]] + NonEmpty(a[1..])) + NonEmpty(b);
      }
    } else {
      assert a + b == b;
    }
  }
}

=== FILE: store.dfy ===
/**
 The in-memory document store that stands in for the real-time database
 during local development, as a pure transition system. The state is the
 collection (a JavaScript `Map`, so an insertion-ordered list of entries
 with distinct ids) and the ordered list of registered listeners. Every
 operation returns the next state together with the notifications it
 delivers, in delivery order.
 */
module MockStore {
  import opened Wrappers
  import opened Seqs
  import opened Values

  type Id = string

  /** A registered `onSnapshot` callback, known by its identity only. */
  type Listener = nat

  datatype Entry = Entry(id: Id, data: Fields)

  datatype ChangeKind = Added | Modified | Removed

  /** One element of a snapshot's `docChanges()`. */
  datatype Change = Change(kind: ChangeKind, id: Id, data: Fields)

  /** One invocation of a listener with the changes it is shown. */
  datatype Notification = Notification(listener: Listener, changes: seq<Change>)

  datatype Store = Store(entries: seq<Entry>, listeners: seq<Listener>)

  /** The next state and the notifications delivered on the way to it. */
  datatype Transition = Transition(store: Store, events: seq<Notification>)

  /** `new MockFirestore()`: an empty collection and no listeners. Every
      operation below keeps ids distinct, and this is where that starts. */
  function NewStore(): (s: Store)
    ensures Ids(s.entries) == [] && s.listeners == []
    ensures DistinctIds(s.entries)
  {
    Store([], [])
  }

  const UpvotesField := "upvotes"

  // ---------------------------------------------------------------------
  // The collection as an insertion-ordered map
  // ---------------------------------------------------------------------

  /** The ids in insertion order. */
  function Ids(entries: seq<Entry>): (r: seq<Id>)
    ensures |r| == |entries|
    ensures forall i :: 0 <= i < |r| ==> r[i] == entries[i].id
  {
    if |entries| == 0 then [] else [entries[0].id] + Ids(entries[1..])
  }

  /** Each id names at most one entry, as in a `Map`. */
  predicate DistinctIds(entries: seq<Entry>)
  {
    forall i, j :: 0 <= i < j < |entries| ==> entries[i].id != entries[j].id
  }

  /** `this.comments.get(id)`, with `undefined` as None. */
  function Get(entries: seq<Entry>, id: Id): (r: Option<Fields>)
    ensures r.None? <==> id !in Ids(entries)
    ensures DistinctIds(entries) ==>
              forall i :: 0 <= i < |entries| && entries[i].id == id ==> r == Some(entries[i].data)
  {
    if |entries| == 0 then None
    else if entries[0].id == id then Some(entries[0].data)
    else Get(entries[1..], id)
  }

  /** `this.comments.set(id, data)`: an existing id keeps its place, a new one
      goes last. What a later `get` sees is stated by `PutGet`. */
  function Put(entries: seq<Entry>, id: Id, data: Fields): (r: seq<Entry>)
    ensures id in Ids(entries) ==> Ids(r) == Ids(entries)
    ensures id !in Ids(entries) ==> Ids(r) == Ids(entries) + [id]
    ensures DistinctIds(entries) ==> DistinctIds(r)
  {
    if |entries| == 0 then [Entry(id, data)]
    else if entries[0].id == id then
      var r := [Entry(id, data)] + entries[1..];
      assert r[1..] == entries[1..];
      SameIdsDistinct(entries, r);
      r
    else
      var rest := Put(entries[1..], id, data);
      var r := [entries[0]] + rest;
      assert r[1..] == rest;
      assert Ids(entries) == [entries[0].id] + Ids(entries[1..]);
      assert Ids(r) == [entries[0].id] + Ids(rest);
      if id in Ids(entries) then
        SameIdsDistinct(entries, r);
        r
      else
        assert Ids(r) == Ids(entries) + [id];
        AppendedIdDistinct(entries, r, id);
        r
  }

  /** After `set(id, data)`, `get(id)` gives `data` and every other id reads as before. */
  lemma {:induction false} PutGet(entries: seq<Entry>, id: Id, data: Fields)
    ensures Get(Put(entries, id, data), id) == Some(data)
    ensures forall other :: other != id ==> Get(Put(entries, id, data), other) == Get(entries, other)
  {
    var r := Put(entries, id, data);
    if |entries| > 0 {
      assert r[1..] == if entries[0].id == id then entries[1..] else Put(entries[1..], id, data);
      if entries[0].id != id {
        PutGet(entries[1..], id, data);
      }
    }
  }

  /** Distinctness depends only on the id sequence. */
  lemma SameIdsDistinct(a: seq<Entry>, b: seq<Entry>)
    requires Ids(a) == Ids(b)
    ensures DistinctIds(a) ==> DistinctIds(b)
  {
    assert forall i :: 0 <= i < |b| ==> b[i].id == Ids(a)[i];
  }

  /** Appending a fresh id keeps the ids distinct. */
  lemma AppendedIdDistinct(a: seq<Entry>, b: seq<Entry>, id: Id)
    requires id !in Ids(a)
    requires Ids(b) == Ids(a) + [id]
    ensures DistinctIds(a) ==> DistinctIds(b)
  {
    assert forall i :: 0 <= i < |a| ==> b[i].id == Ids(a)[i];
    assert b[|a|].id == id;
  }

  /** The stored document, or `{}` when there is none (`get(id) || {}`). */
  function Existing(s: Store, id: Id): Fields
  {
    match Get(s.entries, id)
    case Some(data) => data
    case None => map[]
  }

  // ---------------------------------------------------------------------
  // Notifications
  // ---------------------------------------------------------------------

  /** `_notifyListeners`: every registered listener, in registration order,
      is called once with a snapshot holding just this change. */
  function Notify(listeners: seq<Listener>, change: Change): (r: seq<Notification>)
    ensures |r| == |listeners|
    ensures forall i :: 0 <= i < |r| ==> r[i].listener == listeners[i] && r[i].changes == [change]
  {
    if |listeners| == 0 then []
    else [Notification(listeners[0], [change])] + Notify(listeners[1..], change)
  }

  // ---------------------------------------------------------------------
  // Operations
  // ---------------------------------------------------------------------

  /** The id `add` generates from the clock reading `Date.now()`. */
  function DocId(now: nat): Id
  {
    "doc_" + NatText(now)
  }

  /** `collection(..).add(data)` at clock reading `now`: stores a copy of the
      data under the generated id and tells every listener it was added.
      The second component is the id returned to the caller. */
  function Add(s: Store, now: nat, data: Fields): (r: (Transition, Id))
    ensures r.1 == DocId(now)
    ensures Get(r.0.store.entries, r.1) == Some(data)
    ensures forall other :: other != r.1 ==> Get(r.0.store.entries, other) == Get(s.entries, other)
    ensures Ids(r.0.store.entries) == if r.1 in Ids(s.entries) then Ids(s.entries) else Ids(s.entries) + [r.1]
    ensures r.0.store.listeners == s.listeners
    ensures |r.0.events| == |s.listeners|
    ensures forall i :: 0 <= i < |r.0.events| ==>
              r.0.events[i] == Notification(s.listeners[i], [Change(Added, r.1, data)])
    ensures DistinctIds(s.entries) ==> DistinctIds(r.0.store.entries)
  {
    var id := DocId(now);
    var entries := Put(s.entries, id, data);
    PutGet(s.entries, id, data);
    (Transition(Store(entries, s.listeners), Notify(s.listeners, Change(Added, id, data))), id)
  }

  /** The test `data.upvotes && data.upvotes.__increment` of `doc(id).update`:
      only an increment directive with a non-zero amount passes it. */
  predicate TakesIncrement(data: Fields)
    ensures TakesIncrement(data) <==>
              && UpvotesField in data
              && Truthy(data[UpvotesField])
              && IncrementProperty(data[UpvotesField]).Some?
              && Truthy(IncrementProperty(data[UpvotesField]).value)
  {
    UpvotesField in data && data[UpvotesField].Directive? && data[UpvotesField].amount != 0
  }

  /** `newData.upvotes || 0`: the stored counter, or 0 when it is missing or falsy. */
  function Counter(fields: Fields): (r: Value)
    ensures Truthy(r) || r == Num(0)
    ensures Truthy(r) ==> UpvotesField in fields && r == fields[UpvotesField]
    ensures UpvotesField in fields && Truthy(fields[UpvotesField]) ==> r == fields[UpvotesField]
  {
    if UpvotesField in fields && Truthy(fields[UpvotesField]) then fields[UpvotesField] else Num(0)
  }

  /** `doc(id).update(data)`. With an increment directive only the counter
      changes, by the directive's amount, and every other key of `data` is
      ignored; otherwise the keys of `data` overwrite the stored ones. A
      missing document is created from `{}`. Listeners are told the new
      document was modified. */
  function Update(s: Store, id: Id, data: Fields): (t: Transition)
    ensures Get(t.store.entries, id).Some?
    ensures TakesIncrement(data) ==>
              var before := Existing(s, id);
              var after := Get(t.store.entries, id).value;
              && after.Keys == before.Keys + {UpvotesField}
              && after[UpvotesField] == Plus(Counter(before), data[UpvotesField].amount)
              && forall k :: k in before && k != UpvotesField ==> after[k] == before[k]
    ensures !TakesIncrement(data) ==>
              var before := Existing(s, id);
              var after := Get(t.store.entries, id).value;
              && after.Keys == before.Keys + data.Keys
              && (forall k :: k in data ==> after[k] == data[k])
              && (forall k :: k in before && k !in data ==> after[k] == before[k])
    ensures forall other :: other != id ==> Get(t.store.entries, other) == Get(s.entries, other)
    ensures Ids(t.store.entries) == if id in Ids(s.entries) then Ids(s.entries) else Ids(s.entries) + [id]
    ensures t.store.listeners == s.listeners
    ensures |t.events| == |s.listeners|
    ensures forall i :: 0 <= i < |t.events| ==>
              t.events[i] == Notification(s.listeners[i], [Change(Modified, id, Get(t.store.entries, id).value)])
    ensures DistinctIds(s.entries) ==> DistinctIds(t.store.entries)
  {
    var existing := Existing(s, id);
    var newData :=
      if TakesIncrement(data)
      then existing[UpvotesField := Plus(Counter(existing), data[UpvotesField].amount)]
      else existing + data;
    PutGet(s.entries, id, newData);
    Transition(Store(Put(s.entries, id, newData), s.listeners), Notify(s.listeners, Change(Modified, id, newData)))
  }

  /** The plain merge `{ ...existing, ...data }` of a query result's
      `ref.update(data)` and of a queued batch update: no increment directive
      is interpreted. A missing document is created from `{}`. */
  function Merge(s: Store, id: Id, data: Fields): (t: Transition)
    ensures Get(t.store.entries, id).Some?
    ensures Get(t.store.entries, id).value.Keys == Existing(s, id).Keys + data.Keys
    ensures forall k :: k in data ==> Get(t.store.entries, id).value[k] == data[k]
    ensures forall k :: k in Existing(s, id) && k !in data ==> Get(t.store.entries, id).value[k] == Existing(s, id)[k]
    ensures forall other :: other != id ==> Get(t.store.entries, other) == Get(s.entries, other)
    ensures Ids(t.store.entries) == if id in Ids(s.entries) then Ids(s.entries) else Ids(s.entries) + [id]
    ensures t.store.listeners == s.listeners
    ensures |t.events| == |s.listeners|
    ensures forall i :: 0 <= i < |t.events| ==>
              t.events[i] == Notification(s.listeners[i], [Change(Modified, id, Get(t.store.entries, id).value)])
    ensures DistinctIds(s.entries) ==> DistinctIds(t.store.entries)
  {
    var newData := Existing(s, id) + data;
    PutGet(s.entries, id, newData);
    Transition(Store(Put(s.entries, id, newData), s.listeners), Notify(s.listeners, Change(Modified, id, newData)))
  }

  /** `data[field] === value`; a missing field reads as `undefined` and matches nothing. */
  predicate Matches(data: Fields, field: string, value: Value)
    ensures Matches(data, field, value) ==> field in data && data[field] == value && !IsObject(value)
    ensures field in data && data[field] == value && !IsObject(value) ==> Matches(data, field, value)
  {
    field in data && StrictEquals(data[field], value)
  }

  /** The documents `where(field, op, value).get()` returns, each with the
      data it had at query time: exactly those whose `field` strictly equals
      `value`, in insertion order. The operator argument is ignored by the
      store, so it is not a parameter here. */
  function Query(entries: seq<Entry>, field: string, value: Value): (r: seq<Entry>)
    ensures forall i :: 0 <= i < |r| ==> Matches(r[i].data, field, value)
    ensures forall i :: 0 <= i < |entries| && Matches(entries[i].data, field, value) ==> entries[i] in r
    ensures IsSubsequence(r, entries)
  {
    if |entries| == 0 then []
    else
      var rest := Query(entries[1..], field, value);
      if Matches(entries[0].data, field, value) then
        assert ([entries[0]] + rest)[1..] == rest;
        [entries[0]] + rest
      else rest
  }

  /** The initial snapshot `onSnapshot` delivers: one "added" change per
      stored document, in insertion order. */
  function Replay(entries: seq<Entry>): (r: seq<Change>)
    ensures |r| == |entries|
    ensures forall i :: 0 <= i < |r| ==> r[i] == Change(Added, entries[i].id, entries[i].data)
  {
    if |entries| == 0 then [] else [Change(Added, entries[0].id, entries[0].data)] + Replay(entries[1..])
  }

  /** `orderBy(..).onSnapshot(callback)`: the callback first receives one
      snapshot replaying every stored document, then joins the end of the
      listener list. The unsubscribe handle it returns is `Unsubscribe` with
      this callback. The ordering arguments are ignored by the store. */
  function OnSnapshot(s: Store, callback: Listener): (t: Transition)
    ensures t.store.entries == s.entries
    ensures t.store.listeners == s.listeners + [callback]
    ensures |t.events| == 1 && t.events[0].listener == callback
    ensures |t.events[0].changes| == |s.entries|
    ensures forall i :: 0 <= i < |s.entries| ==>
              t.events[0].changes[i] == Change(Added, s.entries[i].id, s.entries[i].data)
  {
    Transition(Store(s.entries, s.listeners + [callback]), [Notification(callback, Replay(s.entries))])
  }

  /** The unsubscribe handle: removes the first registration of the callback,
      if there is one, and keeps the others in order. */
  function Unsubscribe(s: Store, callback: Listener): (r: Store)
    ensures r.entries == s.entries
    ensures callback !in s.listeners ==> r == s
    ensures multiset(r.listeners) == multiset(s.listeners) - multiset{callback}
    ensures IsSubsequence(r.listeners, s.listeners)
    ensures callback in s.listeners ==>
              var first := IndexOf(s.listeners, callback);
              |r.listeners| == |s.listeners| - 1 && r.listeners[..first] == s.listeners[..first]
    ensures callback in s.listeners ==>
              var first := IndexOf(s.listeners, callback);
              s.listeners == r.listeners[..first] + [callback] + r.listeners[first..]
  {
    var index := IndexOf(s.listeners, callback);
    if index > -1 then
      s.(listeners := RemoveAt(s.listeners, index))
    else
      SubsequenceReflexive(s.listeners);
      s
  }

  /** `xs.splice(k, 1)`: the element at position `k` taken out, the others
      kept in order around the gap. */
  function RemoveAt<T>(xs: seq<T>, k: nat): (r: seq<T>)
    requires k < |xs|
    ensures |r| == |xs| - 1
    ensures xs == r[..k] + [xs[k]] + r[k..]
    ensures multiset(r) == multiset(xs) - multiset{xs[k]}
    ensures IsSubsequence(r, xs)
  {
    var r := xs[..k] + xs[k + 1..];
    assert xs == xs[..k] + [xs[k]] + xs[k + 1..];
    assert r[..k] == xs[..k] && r[k..] == xs[k + 1..];
    RemoveAtIsSubsequence(xs, k);
    r
  }

  /** Deleting one element leaves a subsequence. */
  lemma {:induction false} RemoveAtIsSubsequence<T>(xs: seq<T>, k: nat)
    requires k < |xs|
    ensures IsSubsequence(xs[..k] + xs[k + 1..], xs)
  {
    if k == 0 {
      assert xs[..k] + xs[k + 1..] == xs[1..];
      SubsequenceReflexive(xs[1..]);
    } else {
      RemoveAtIsSubsequence(xs[1..], k - 1);
      var r := xs[..k] + xs[k + 1..];
      assert r[0] == xs[0];
      assert r[1..] == xs[1..][..k - 1] + xs[1..][k..];
    }
  }

  lemma {:induction false} SubsequenceReflexive<T>(xs: seq<T>)
    ensures IsSubsequence(xs, xs)
  {
    if |xs| > 0 {
      SubsequenceReflexive(xs[1..]);
    }
  }
}

=== FILE: store_properties.dfy ===
/**
 What the mock store's operations guarantee across several calls: how
 increments accumulate, when an update degenerates into a plain merge, what
 the clock-based ids imply, how subscriptions and their handles interact,
 and how a committed batch relates to individual merges.
 */
module StoreProperties {
  import opened Wrappers
  import opened Seqs
  import opened Values
  import opened MockStore
  import opened Batches

  // ---------------------------------------------------------------------
  // Updates and increments
  // ---------------------------------------------------------------------

  /** The counter as a number: its value when it is a number, 0 when it is
      missing, None when it holds anything else. */
  function CounterOf(fields: Fields): Option<int>
  {
    if UpvotesField !in fields then Some(0)
    else if fields[UpvotesField].Num? then Some(fields[UpvotesField].n)
    else None
  }

  /** An increment by a non-zero amount on a numeric (or missing) counter adds
      the amount to it, starting from 0. */
  lemma IncrementAddsToCounter(s: Store, id: Id, amount: int, count: int)
    requires amount != 0
    requires CounterOf(Existing(s, id)) == Some(count)
    ensures var after := Existing(Update(s, id, map[UpvotesField := Increment(amount)]).store, id);
            UpvotesField in after && after[UpvotesField] == Num(count + amount)
  {
    var data := map[UpvotesField := Increment(amount)];
    assert TakesIncrement(data);
  }

  /** An increment directive makes `update` ignore every other key it carries. */
  lemma IncrementIgnoresOtherKeys(s: Store, id: Id, data: Fields, key: string)
    requires TakesIncrement(data)
    requires key != UpvotesField && key in data
    ensures var after := Get(Update(s, id, data).store.entries, id).value;
            (key in after <==> key in Existing(s, id))
            && (key in after ==> after[key] == Existing(s, id)[key])
  {
  }

  /** The data of one upvote: `{ upvotes: increment(1) }`. */
  const OneUpvote: Fields := map[UpvotesField := Increment(1)]

  /** One upvote of a document through `doc(id).update`. */
  function UpvoteOnce(s: Store, id: Id): Store
  {
    Update(s, id, OneUpvote).store
  }

  lemma UpvoteOnceAddsOne(s: Store, id: Id, count: int)
    requires CounterOf(Existing(s, id)) == Some(count)
    ensures CounterOf(Existing(UpvoteOnce(s, id), id)) == Some(count + 1)
  {
    IncrementAddsToCounter(s, id, 1, count);
  }

  /** `times` applications of `step`, one after another. */
  function Repeat(s: Store, step: Store -> Store, times: nat): Store
  {
    if times == 0 then s else step(Repeat(s, step, times - 1))
  }

  /** A step that adds one to a counter, repeated N times, adds N. */
  lemma {:induction false} RepeatCounts(s: Store, step: Store -> Store, counter: Store -> Option<int>, times: nat, count: int)
    requires forall x {:trigger step(x)} :: counter(x).Some? ==> counter(step(x)) == Some(counter(x).value + 1)
    requires counter(s) == Some(count)
    ensures counter(Repeat(s, step, times)) == Some(count + times)
  {
    if times > 0 {
      RepeatCounts(s, step, counter, times - 1, count);
    }
  }

  /** The store after `times` upvotes of one document. */
  function Upvoted(s: Store, id: Id, times: nat): Store
  {
    Repeat(s, UpvoteStep(id), times)
  }

  function UpvoteStep(id: Id): Store -> Store
  {
    x => UpvoteOnce(x, id)
  }

  function CounterAt(id: Id): Store -> Option<int>
  {
    x => CounterOf(Existing(x, id))
  }

  /** Upvoting a document with a numeric counter N times adds exactly N. */
  lemma UpvotesAccumulate(s: Store, id: Id, times: nat, count: int)
    requires CounterOf(Existing(s, id)) == Some(count)
    ensures CounterOf(Existing(Upvoted(s, id, times), id)) == Some(count + times)
  {
    var step := UpvoteStep(id);
    var counter := CounterAt(id);
    forall x | counter(x).Some?
      ensures counter(step(x)) == Some(counter(x).value + 1)
    {
      UpvoteOnceAddsOne(x, id, counter(x).value);
    }
    RepeatCounts(s, step, counter, times, count);
    assert counter(Upvoted(s, id, times)) == Some(count + times);
  }

  /** `increment(0)` is a falsy directive, so `update` takes the merge branch and
      stores the directive object itself as the counter. */
  lemma ZeroIncrementStoresDirective(s: Store, id: Id)
    ensures var after := Get(Update(s, id, map[UpvotesField := Increment(0)]).store.entries, id);
            after.Some? && after.value[UpvotesField] == Directive(0)
  {
    var data := map[UpvotesField := Increment(0)];
    assert !TakesIncrement(data);
  }

  /** Without an increment directive, `update` is exactly the plain merge of `ref.update`. */
  lemma UpdateWithoutDirectiveIsMerge(s: Store, id: Id, data: Fields)
    requires !TakesIncrement(data)
    ensures Update(s, id, data) == Merge(s, id, data)
  {
  }

  /** A plain merge never interprets a directive: `ref.update` and batch updates
      store the increment object as the counter. */
  lemma MergeStoresDirective(s: Store, id: Id, amount: int)
    ensures Get(Merge(s, id, map[UpvotesField := Increment(amount)]).store.entries, id).value[UpvotesField]
         == Directive(amount)
  {
  }

  // ---------------------------------------------------------------------
  // Adding with clock-based ids
  // ---------------------------------------------------------------------

  /** Documents added at different clock readings get different ids, so both are kept. */
  lemma DistinctClocksKeepBoth(s: Store, now1: nat, now2: nat, a: Fields, b: Fields)
    requires now1 != now2
    ensures var (first, id1) := Add(s, now1, a);
            var (second, id2) := Add(first.store, now2, b);
            id1 != id2 && Get(second.store.entries, id1) == Some(a) && Get(second.store.entries, id2) == Some(b)
  {
    NatTextInjective(now1, now2);
    assert DocId(now1)[4..] == NatText(now1);
    assert DocId(now2)[4..] == NatText(now2);
  }

  /** Two documents added within the same millisecond share an id: the second
      replaces the first in its original position, and is reported "added" again. */
  lemma SameClockReplaces(s: Store, now: nat, a: Fields, b: Fields)
    ensures var (first, id) := Add(s, now, a);
            var (second, _) := Add(first.store, now, b);
            && Get(second.store.entries, id) == Some(b)
            && Ids(second.store.entries) == Ids(first.store.entries)
            && forall i :: 0 <= i < |second.events| ==> second.events[i].changes == [Change(Added, id, b)]
  {
    var (first, id) := Add(s, now, a);
    assert id in Ids(first.store.entries);
  }

  // ---------------------------------------------------------------------
  // Queries
  // ---------------------------------------------------------------------

  /** Every document a query returns is the one stored under its id at query time. */
  lemma QueryReturnsStoredDocuments(s: Store, field: string, value: Value)
    requires DistinctIds(s.entries)
    ensures forall e :: e in Query(s.entries, field, value) ==> Get(s.entries, e.id) == Some(e.data)
  {
    forall e | e in Query(s.entries, field, value)
      ensures Get(s.entries, e.id) == Some(e.data)
    {
      SubsequenceMembers(Query(s.entries, field, value), s.entries, e);
    }
  }

  /** Members of a subsequence are members of the sequence. */
  lemma {:induction false} SubsequenceMembers<T>(a: seq<T>, b: seq<T>, x: T)
    requires IsSubsequence(a, b) && x in a
    ensures x in b
    decreases |b|
  {
    if a[0] == b[0] && IsSubsequence(a[1..], b[1..]) {
      if x != a[0] {
        assert x in a[1..];
        SubsequenceMembers(a[1..], b[1..], x);
      }
    } else {
      SubsequenceMembers(a, b[1..], x);
    }
  }

  // ---------------------------------------------------------------------
  // Subscriptions
  // ---------------------------------------------------------------------

  /** A listener subscribed once and then unsubscribed leaves the store as it was. */
  lemma SubscribeThenUnsubscribe(s: Store, callback: Listener)
    requires callback !in s.listeners
    ensures Unsubscribe(OnSnapshot(s, callback).store, callback) == s
  {
    var xs := s.listeners + [callback];
    assert IndexOf(xs, callback) == |s.listeners| by {
      assert xs[|s.listeners|] == callback;
      assert xs[..|s.listeners|] == s.listeners;
    }
    assert xs[..|s.listeners|] + xs[|s.listeners| + 1..] == s.listeners;
  }

  /** Calling the handle of a listener registered once a second time changes nothing. */
  lemma UnsubscribeTwice(s: Store, callback: Listener)
    requires multiset(s.listeners)[callback] <= 1
    ensures Unsubscribe(Unsubscribe(s, callback), callback) == Unsubscribe(s, callback)
  {
    var r := Unsubscribe(s, callback);
    assert multiset(r.listeners)[callback] == 0;
    assert callback !in r.listeners;
  }

  /** The handle removes one registration of its callback and leaves every
      other listener's registrations as they were. */
  lemma UnsubscribeKeepsOthers(s: Store, callback: Listener, other: Listener)
    requires other != callback
    ensures multiset(Unsubscribe(s, callback).listeners)[other] == multiset(s.listeners)[other]
    ensures callback in s.listeners ==>
              multiset(Unsubscribe(s, callback).listeners)[callback] == multiset(s.listeners)[callback] - 1
  {
  }

  /** A new subscriber is notified of later additions after every earlier subscriber. */
  lemma NewListenerNotifiedLast(s: Store, callback: Listener, now: nat, data: Fields)
    ensures var (t, id) := Add(OnSnapshot(s, callback).store, now, data);
            |t.events| == |s.listeners| + 1
            && t.events[|s.listeners|] == Notification(callback, [Change(Added, id, data)])
  {
  }

  // ---------------------------------------------------------------------
  // Batches
  // ---------------------------------------------------------------------

  /** Committing a queue in two parts is committing the first part and then the second. */
  lemma {:induction false} ApplyAllAppend(s: Store, a: seq<Op>, b: seq<Op>)
    ensures ApplyAll(s, a + b).store == ApplyAll(ApplyAll(s, a).store, b).store
    ensures ApplyAll(s, a + b).events == ApplyAll(s, a).events + ApplyAll(ApplyAll(s, a).store, b).events
    decreases |b|
  {
    if |b| == 0 {
      assert a + b == a;
    } else {
      var b' := b[..|b| - 1];
      assert (a + b)[..|a + b| - 1] == a + b';
      assert Last(a + b) == Last(b);
      ApplyAllAppend(s, a, b');
      var mid := ApplyAll(s, a);
      ApplyAllStep(s, a + b);
      ApplyAllStep(mid.store, b);
      var left := ApplyAll(s, a + b');
      var right := ApplyAll(mid.store, b');
      var u := Merge(left.store, Last(b).id, Last(b).data);
      ConcatAssociative(mid.events, right.events, u.events);
    }
  }

  lemma ConcatAssociative<T>(x: seq<T>, y: seq<T>, z: seq<T>)
    ensures x + y + z == x + (y + z)
  {
  }

  /** Two queued updates committed together equal two plain merges in queue order. */
  lemma CommitQueuedInOrder(s: Store, id1: Id, d1: Fields, id2: Id, d2: Fields)
    ensures var b := Queue(Queue(NewBatch, id1, d1), id2, d2);
            var first := Merge(s, id1, d1);
            var second := Merge(first.store, id2, d2);
            ApplyAll(s, b.ops) == Transition(second.store, first.events + second.events)
  {
    var ops := [Op(id1, d1), Op(id2, d2)];
    assert Queue(Queue(NewBatch, id1, d1), id2, d2).ops == ops;
    assert ops[..1] == [Op(id1, d1)];
    ApplyAllSingle(s, Op(id1, d1));
    ApplyAllStep(s, ops);
  }

  /** Of two queued updates to the same key of the same document, the later one wins. */
  lemma LaterQueuedUpdateWins(s: Store, ops: seq<Op>, key: string)
    requires |ops| >= 1 && key in Last(ops).data
    ensures var after := Get(ApplyAll(s, ops).store.entries, Last(ops).id);
            after.Some? && after.value[key] == Last(ops).data[key]
  {
  }

  /** The last queued update of a document decides every key it writes there,
      whatever other documents the operations after it update. */
  lemma {:induction false} LastUpdateOfDocumentWins(s: Store, ops: seq<Op>, i: nat, key: string)
    requires i < |ops| && key in ops[i].data
    requires forall j :: i < j < |ops| ==> ops[j].id != ops[i].id
    ensures var after := Get(ApplyAll(s, ops).store.entries, ops[i].id);
            after.Some? && key in after.value && after.value[key] == ops[i].data[key]
  {
    var id := ops[i].id;
    if i < |ops| - 1 {
      var init := ops[..|ops| - 1];
      assert init[i] == ops[i];
      LastUpdateOfDocumentWins(s, init, i, key);
      var t := ApplyAll(s, init);
      ApplyAllStep(s, ops);
      assert Last(ops).id != id;
      assert Get(ApplyAll(s, ops).store.entries, id) == Get(t.store.entries, id);
    } else {
      ApplyAllStep(s, ops);
    }
  }
}

=== FILE: values.dfy ===
/**
 The JavaScript values the mock store keeps in a document, and the three
 pieces of JavaScript semantics its `update` depends on: truthiness, strict
 equality (`===`) and `+` with a number on the right.
 */
module Values {
  import opened Wrappers

  /** A field value. Numbers are integral; `Stamp` is the object returned by
      `FieldValue.serverTimestamp()` and `text` is what its `toString` gives;
      `Directive` is the `{ __increment: amount }` object of `FieldValue.increment`. */
  datatype Value =
    | Num(n: int)
    | Str(s: string)
    | Bool(b: bool)
    | Null
    | Stamp(text: string)
    | Directive(amount: int)

  /** A document: its fields by name. */
  type Fields = map<string, Value>

  /** `FieldValue.increment(n)`: a fresh object whose `__increment` property
      is `n`. Being an object, it is truthy and strictly equal to nothing. */
  function Increment(n: int): (r: Value)
    ensures IncrementProperty(r) == Some(Num(n))
    ensures Truthy(r)
    ensures forall v :: !StrictEquals(r, v)
  {
    Directive(n)
  }

  /** The property read `v.__increment`, with `None` for `undefined`: only
      the increment directive carries the property. */
  function IncrementProperty(v: Value): Option<Value>
  {
    match v
    case Directive(amount) => Some(Num(amount))
    case _ => None
  }

  /** Objects, as opposed to primitive values. */
  predicate IsObject(v: Value)
  {
    v.Stamp? || v.Directive?
  }

  /** JavaScript truthiness: 0, "", false and null are falsy, every object is truthy. */
  predicate Truthy(v: Value)
  {
    match v
    case Num(n) => n != 0
    case Str(s) => s != ""
    case Bool(b) => b
    case Null => false
    case Stamp(_) => true
    case Directive(_) => true
  }

  /** `a === b`. Primitives compare by value; two objects are equal only when
      they are the same object, which a value model cannot observe, so two
      object values are never strictly equal here. */
  predicate StrictEquals(a: Value, b: Value)
    ensures StrictEquals(a, b) ==> a == b
    ensures StrictEquals(a, b) ==> !IsObject(a) && !IsObject(b)
    ensures !IsObject(a) && !IsObject(b) ==> (StrictEquals(a, b) <==> a == b)
  {
    !IsObject(a) && a == b
  }

  // ---------------------------------------------------------------------
  // Decimal text of numbers (`String(n)`, template literals, `+` with a string)
  // ---------------------------------------------------------------------

  predicate IsDigit(c: char)
  {
    '0' <= c <= '9'
  }

  function DigitChar(d: nat): (c: char)
    requires d < 10
    ensures IsDigit(c)
  {
    (('0' as int) + d) as char
  }

  function DigitValue(c: char): (d: nat)
    requires IsDigit(c)
    ensures d < 10
  {
    (c as int) - ('0' as int)
  }

  /** The decimal text of a non-negative integer, without leading zeros. */
  function NatText(n: nat): (r: string)
    ensures |r| >= 1
    ensures forall i :: 0 <= i < |r| ==> IsDigit(r[i])
    ensures |r| > 1 ==> r[0] != '0'
  {
    if n < 10 then [DigitChar(n)] else NatText(n / 10) + [DigitChar(n % 10)]
  }

  /** The number a string of decimal digits denotes. */
  function ParseNat(s: string): nat
    requires forall i :: 0 <= i < |s| ==> IsDigit(s[i])
  {
    if |s| == 0 then 0 else ParseNat(s[..|s| - 1]) * 10 + DigitValue(s[|s| - 1])
  }

  /** Reading back the decimal text of a number gives the number. */
  lemma {:induction false} ParseNatText(n: nat)
    ensures ParseNat(NatText(n)) == n
  {
    if n >= 10 {
      ParseNatText(n / 10);
      var r := NatText(n);
      assert r[..|r| - 1] == NatText(n / 10);
      assert DigitValue(DigitChar(n % 10)) == n % 10;
    } else {
      assert DigitValue(DigitChar(n)) == n;
    }
  }

  /** Distinct numbers have distinct decimal texts. */
  lemma NatTextInjective(m: nat, n: nat)
    requires m != n
    ensures NatText(m) != NatText(n)
  {
    ParseNatText(m);
    ParseNatText(n);
  }

  /** `String(n)` for an integral number. */
  function IntText(n: int): (r: string)
    ensures |r| >= 1
    ensures n >= 0 ==> r == NatText(n)
    ensures n < 0 ==> r[0] == '-' && r[1..] == NatText(-n)
  {
    if n < 0 then "-" + NatText(-n) else NatText(n)
  }

  /** What `String(v)` gives for an object value. */
  function ObjectText(v: Value): string
    requires IsObject(v)
  {
    match v
    case Stamp(text) => text
    case Directive(_) => "[object Object]"
  }

  /** JavaScript's `a + n` for a number `n`: numeric addition when `a` is a
      number, a boolean or null, string concatenation when `a` is a string or
      an object (converted through its `toString`). */
  function Plus(a: Value, n: int): (r: Value)
    ensures a.Num? ==> r == Num(a.n + n)
    ensures !Truthy(a) && !a.Str? ==> r == Num(n)
    ensures a == Bool(true) ==> r == Num(n + 1)
    ensures r.Num? <==> !(a.Str? || IsObject(a))
    ensures a.Str? ==> r == Str(a.s + IntText(n))
    ensures IsObject(a) ==> r == Str(ObjectText(a) + IntText(n))
  {
    match a
    case Num(x) => Num(x + n)
    case Bool(b) => Num((if b then 1 else 0) + n)
    case Null => Num(n)
    case Str(s) => Str(s + IntText(n))
    case Stamp(text) => Str(text + IntText(n))
    case Directive(_) => Str("[object Object]" + IntText(n))
  }
}
